=== FILE: README.md ===
# Learning_Matan: a Dafny model of the card scheduler and the text transforms

Learning_Matan turns a Typst lecture-notes archive into flashcards. It has two parts:

- A script (`main.py`) that handles the notes:
  - it strips comments from the main Typst file;
  - it cuts the file into sections at every level-2 heading;
  - it writes one Typst file per section, named after the section's number and its sanitised title, and renders each one to page images.
- A Telegram bot (`bot.py`) that keeps a table of image cards in SQLite:
  - `/learn` hands a card to a user;
  - `/review` shows the user's first due card;
  - any text message answers the pending card. The answer is always counted as known, so the card's interval doubles, and the bot moves on to the next due card. The grading routine also has a reset to one day for a failed card, but `answer` never takes that branch.

The project models these as follows:

- The bot's card table and per-user session state become a class, `Flashcards.FlashcardBot`.
  - Its methods are the bot's database updates and command handlers.
  - Each method is proved against pure functions on the table: insert-or-ignore, load, assign, grade, and the due and new queries.
- The script's string transforms become pure functions:
  - file-name sanitising;
  - splitting and naming of sections;
  - content clean-up;
  - comment removal.
- Every regular-expression substitution by `''` is one left-to-right scanner, `ReSub.Scan`, driven by a hand-written matcher per pattern.
- `NameWords` gives file-name sanitising an independent reference definition, the title's words (maximal runs of allowed characters) joined by single `_`, and proves the three substitutions equal to it.
- The Python `str` operations the script uses (`split`, `split(sep, 1)`, `replace`, `strip`) are written out in `PyStr`.

Modelling decisions:

- **Card ids.** A card's id is modelled as its row position: the card with id `k` is element `k - 1` of the `cards` sequence. The real `AUTOINCREMENT` rowids can have gaps, but they grow in insertion order and rows are never deleted, so row positions keep their order. The code only compares ids for equality and order, so this is enough.
- **Query order.** The queries have no `ORDER BY`. They are modelled as a scan in row-id order, so they return ids in ascending order, and `[0]` is the smallest matching id.
- **Time.** Time is an integer count of microseconds, the resolution of Python's `datetime`. SQLite compares the stored timestamps as ISO-8601 text; for four-digit years that order agrees with time order, so integer comparison is faithful.
- **The clock.** Each handler takes one `now` parameter where the code reads the clock several times.
- **Pending cards.** `context.user_data['current_card']` becomes the map `currentCard` from user to card id. Absence in the map means no pending card. A real card id is never 0, so the code's `not card_id` test is the same as absence.
- **Scheduling policy.** Each card has one owner column and a doubling/reset interval, and `answer` always chains into `review`.

## Model

| member | source | states |
|---|---|---|
| PyStr.Split | main.py:31 | `str.split` on a non-empty separator always gives at least one piece |
| PyStr.JoinSplit | main.py:31 | joining the pieces of a split with the separator gives the text back |
| PyStr.SplitPiecesFree | main.py:31 | no piece of a split contains the separator (cuts are leftmost and non-overlapping) |
| PyStr.SplitOnce | main.py:39 | `split("\n", 1)`: the head has no newline; with no newline the head is the whole text, otherwise text = head + newline + rest |
| PyStr.Replace | main.py:13 | `str.replace(pat, repl)` is `repl.join(s.split(pat))`: it leaves a text without `pat` unchanged, and replacing `pat` by itself changes nothing |
| PyStr.ReplaceNoop | main.py:13 | replacing an absent pattern, or a pattern by itself, changes nothing |
| PyStr.NoStart | main.py:13 | a text without the pattern's first character has no occurrence and splits into itself |
| PyStr.ReplaceUnique | main.py:13 | when the pattern's first character occurs only where the pattern does, `replace` swaps exactly that one occurrence |
| PyStr.Strip | main.py:9 | neither end of the result of `strip(chars)` is in `chars` |
| PyStr.StripBounds | main.py:9 | `strip(chars)` returns a slice of the input, and everything it cut from either end is in `chars` |
| PyStr.StripNoop | main.py:9 | a string whose ends are not in `chars` is returned unchanged by `strip(chars)` |
| PyStr.StripSpace | main.py:40 | `strip()` leaves no Python whitespace character at either end |
| ReSub.Scan | main.py:87 | the left-to-right scan of `re.sub`: every step consumes at least one character, so there are at most as many steps as characters and only the empty text has none; ScanCovers and ScanFaithful give the steps' meaning |
| ReSub.Sub | main.py:87 | a substitution by `''` never lengthens the text |
| ReSub.ScanCovers | main.py:87 | the scan's kept characters and removed matches, put back together, are exactly the input |
| ReSub.ScanFaithful | main.py:87 | each removed piece is exactly the pattern's match at that position, and each kept character stands where the pattern does not match |
| ReSub.SubNoMatch | main.py:43-44 | where the pattern matches at no position, the substitution leaves the text unchanged |
| Comments.CommentMatch | main.py:87 | the comment pattern at one position. `//` runs to the next newline or the end of the text, newline excluded. A slash-star opener runs through the first star-slash closer after it. An opener with no closer matches nothing. Anything else matches nothing |
| Comments.RemoveComments | main.py:87 | comment removal never lengthens the text |
| Comments.Decomposition | main.py:87 | the text splits into kept characters and comments that reassemble it; each comment is the pattern's match where it starts; the output is the kept characters, in order |
| Comments.NoCommentUnchanged | main.py:87 | text with no `//` and no closed block comment, in particular text with no comment opener at all, comes out unchanged |
| Sanitize.ReplaceDisallowed | main.py:8 | each character outside `a-zA-Zа-яА-Я0-9` becomes `_` and every other character is kept in place; the allowed characters survive in order |
| Sanitize.ReplaceKeepsAlphabet | main.py:8 | a string made only of allowed characters and `_` passes the first substitution unchanged |
| Sanitize.CollapseUnderscores | main.py:9 | after `_+` → `_` no two adjacent characters are both `_`; first and last characters are kept |
| Sanitize.CollapseKeepsLetters | main.py:9 | collapsing runs of `_` keeps the non-`_` characters, in order |
| Sanitize.CollapseKeepsAlphabet | main.py:9 | collapsing runs of `_` adds no character outside the allowed class and `_` |
| Sanitize.CollapseNoop | main.py:9 | a string without doubled `_` is left unchanged by the collapse |
| Sanitize.StripKeepsLetters | main.py:9 | `strip('_')` keeps every non-`_` character, in order |
| Sanitize.StripKeepsShape | main.py:9 | `strip('_')` keeps a string free of doubled `_` and within the name alphabet |
| Sanitize.SanitizeSteps | main.py:8-9 | after the three steps the name is in the alphabet and has no doubled `_`, and its non-`_` characters are the input's allowed characters, in order |
| Sanitize.SanitizeFilename | main.py:7-10 | the output has only allowed characters and `_`, has no doubled `_` and no `_` at either end, and its non-`_` characters are exactly the input's allowed characters, in order |
| Sanitize.SanitizeIdempotent | main.py:7-10 | sanitising a sanitised name changes nothing |
| NameWords.RunEnd | main.py:8-9 | a run of characters of one kind, started at `i`, ends at the first character not of that kind, or at the end of the text |
| NameWords.RunEndUnique | main.py:8-9 | any end position with all kept characters before it and a non-kept character (or the end) at it is the run's end |
| NameWords.Runs | main.py:8-9 | the maximal runs of kept characters, in order; each is non-empty and made only of kept characters |
| NameWords.Words | main.py:8 | the words of a title are its maximal runs of characters in `a-zA-Zа-яА-Я0-9`, each non-empty |
| NameWords.RunsTransfer | main.py:8 | replacing each disallowed character by `_` turns the words of the title into exactly the runs of non-`_` characters |
| NameWords.RunsSkip | main.py:9 | leading `_` start no run |
| NameWords.RunsCons | main.py:9 | a run of non-`_` characters followed by `_` or by nothing is the first run |
| NameWords.CollapseCons | main.py:9 | `_+` → `_` passes a leading non-`_` character through |
| NameWords.CollapseRun | main.py:9 | `_+` → `_` passes a leading run of non-`_` characters through unchanged |
| NameWords.CollapseUnderscoreRun | main.py:9 | `_+` → `_` turns a leading run of `_` into a single `_` |
| NameWords.RunsCollapse | main.py:9 | `_+` → `_` keeps the runs of non-`_` characters, in order |
| NameWords.FirstRun | main.py:9 | a text that starts with a kept character is its non-empty first run followed by a rest that does not start with a kept character |
| NameWords.RunsCollapseUnderscores | main.py:9 | the step of the above for a text starting with `_` |
| NameWords.RunsCollapseRun | main.py:9 | the step of the above for a text starting with a non-`_` character |
| NameWords.RunsSnocUnderscore | main.py:9 | a trailing `_` neither ends a run early nor starts a new one |
| NameWords.RunsStripLeft | main.py:9 | `lstrip('_')` keeps the runs |
| NameWords.RunsStripRight | main.py:9 | `rstrip('_')` keeps the runs |
| NameWords.RunsStrip | main.py:9 | `strip('_')` keeps the runs |
| NameWords.NormalRest | main.py:9 | in a name without doubled or outer `_`, the first run is followed by one `_` and then the remaining runs, and what follows is again such a name |
| NameWords.JoinRunsOfNormal | main.py:9 | a name without doubled or outer `_` is its runs joined by single `_` |
| NameWords.SanitizeIsJoinOfWords | main.py:7-10 | `sanitize_filename(s)` is the words of `s` joined by single `_`; the three substitutions together are that reference definition |
| Sections.Decimal | main.py:47 | the decimal form of a number is a non-empty string of digits with no leading zero (unless it is `0`), one digit long exactly when the number is below 10 |
| Sections.DecimalRoundTrip | main.py:47 | reading back the decimal form of `n` gives `n` |
| Sections.Pad2 | main.py:47 | `{i:02d}` is at least two digits, denotes `i`, has a leading zero only when it is exactly two digits long, and is the plain decimal form from 10 on |
| Sections.FileStem | main.py:47 | the stem `f"{i:02d}_{sanitized_title}"` uses only allowed characters and `_`, has no doubled `_`, and its leading digits, up to the first `_`, read back as `i`; the digits are `{i:02d}` and what follows the `_` is the sanitised title |
| Sections.StemShape | main.py:47 | zero-padded digits, `_` and a sanitised name make a name in the allowed alphabet with no doubled `_` |
| Sections.StemsDistinct | main.py:46-47 | sections with different numbers get different file stems, whatever their titles |
| Sections.ExtensionKeepsDistinct | main.py:47 | different stems give different names under one extension |
| Sections.HeadingMatch | main.py:43 | `\n=+.*$` without MULTILINE. It matches only a newline, then `=`, then the rest of that line, and only at the end of the text (or before a final newline). Every such final heading line is matched |
| Sections.LinkAtDetermined | main.py:44 | a link at a position is unique: its label ends at the first `)` and its text at the first `]` |
| Sections.LinkMatch | main.py:44 | `#link(label(...))[...]` matches exactly when a well-formed link starts here, and the match ends at the link's first `]` (lazy text) |
| Sections.CleanContent | main.py:43-44 | the cleaned content is never longer than the raw content |
| Sections.NoHeadingUnchanged | main.py:43 | text in which no newline is followed by `=` loses nothing to the heading pattern |
| Sections.NoLinkUnchanged | main.py:44 | text without `#link(label(` loses nothing to the link pattern |
| Sections.CleanContentPlain | main.py:43-44 | content with no `=`-line and no link is only stripped |
| Sections.SectionOf | main.py:39-53 | a section's title is its piece's first line, stripped. Its content is the rest after the first newline, cleaned, or `""` when there is no newline. Its Typst file is named `{i:02d}_` + sanitised title + `.typst`, and the image file name it requests from the renderer is the same stem + `.png`. The text written to the Typst file is a newline, the preamble, a newline, `== ` and the title, a newline, the content and a final newline |
| Sections.TitleOnlySection | main.py:39-41 | a piece without a newline is a bare title with empty content |
| Sections.SplitSections | main.py:31-37 | the document is split on `"\n== "` and piece 0 gives no file, so there is one section fewer than there are pieces |
| Sections.Numbered | main.py:33 | the loop over `enumerate` makes, for the item at position `k`, the result for index `i + k`, one per item and in order |
| Sections.SplitSectionsAt | main.py:31-53 | section `k` (from 0) is the section numbered `k + 1`, made from piece `k + 1`, and its files are named by its stem |
| Sections.SectionNamesDiffer | main.py:46-53 | sections with different numbers never share a Typst file name (stem + `.typst`) or a requested image name (stem + `.png`), whatever their titles |
| Sections.SectionNamesDistinct | main.py:33-53 | the sections are numbered 1, 2, … in order and no two of them write to the same Typst file or request the same image path |
| Sections.RenderTarget | main.py:13 | the output file name given to `typst compile` is the section's stem + `-{p}.png`: the stem contains no `.png`, so `replace` changes only the extension |
| Sections.TargetOfSection | main.py:13 | a section named by its stem gets the render target stem + `-{p}.png` |
| Sections.PageOfSection | main.py:13 | a section named by its stem gets page images stem + `-n.png` |
| Sections.PagesInDirectory | main.py:13 | under a directory with no `.` and no `{`, the replacements still touch only the file name: page `n` of `dir/stem.png` is `dir/stem-n.png` |
| Sections.ImagesDirectoryPlain | main.py:98 | the script's image directory `output_images` contains no `.` and no `{` |
| Sections.ScriptImagePages | main.py:98 | the script's `output_images` is such a directory, so page `n` of a section's image is written to `output_images/stem-n.png` |
| Sections.TargetOfStem | main.py:13 | in a stem's image name the only `.png` is the extension |
| Sections.PageImage | main.py:13 | page `n` of a section is written under the file name stem + `-` + `n` + `.png` |
| Sections.PageOfStem | main.py:13 | in a render target the only `{p}` is the page-number slot |
| Sections.DashPrefixesDistinct | main.py:13 | page images of two different stems differ whatever the page numbers, because a stem contains no `-` |
| Sections.PageImagesDiffer | main.py:13 | no page image (stem + `-n.png`) of one section is a page image of a section with another number, whatever the titles and page numbers |
| Sections.SectionImagesDistinct | main.py:53-55 | in a split document, no page image written for one section is written for another |
| Sections.SectionPieces | main.py:31 | the pieces, joined with `"\n== "`, give back the document, and no piece contains the separator |
| Flashcards.InsertOrIgnore | bot.py:57-58 | after `INSERT OR IGNORE` the path is in the table, existing rows are untouched, a known path changes nothing, a new path gets a card with interval 1, due now, without owner, and path uniqueness and the interval invariant are kept |
| Flashcards.LoadCatalog | bot.py:52-58 | loading a list of paths only appends rows and keeps the table invariant |
| Flashcards.LoadCatalogContents | bot.py:52-58 | after a load every listed path is in the table and every added row is a fresh card for a listed path |
| Flashcards.LoadCatalogPresent | bot.py:57-58 | loading paths that are all already present changes nothing |
| Flashcards.LoadCatalogIdempotent | bot.py:42-61 | loading the same paths a second time, at any later instant, changes nothing |
| Flashcards.NextReview | bot.py:64-65 | the next review is `interval` days after now, so at least a day later for a positive interval |
| Flashcards.NextInterval | bot.py:123-126 | success doubles the interval; failure sets it to exactly 1; a power of two stays a power of two |
| Flashcards.Grade | bot.py:116-134 | grading a missing card is an error. Otherwise it changes only that card's interval and review date: the new interval is doubled or reset, the review date is now + new interval days, and owner, path and every other row are unchanged |
| Flashcards.GradeKeepsInvariant | bot.py:123-131 | grading keeps paths unique and every interval a power of two, and puts the graded card's next review at least a day after now |
| Flashcards.Assign | bot.py:105-113 | assigning sets the owner to the user and the review date to now and keeps the interval and the path; no other row changes; a missing id changes nothing |
| Flashcards.Where | bot.py:83-84 | a filtered scan returns exactly the ids of the matching rows, in ascending order |
| Flashcards.DueFlashcards | bot.py:79-89 | the due query returns exactly the user's cards whose review date is not after now, in ascending id order |
| Flashcards.NewFlashcards | bot.py:92-102 | the new query returns exactly the cards without owner or owned by another user, in ascending id order |
| Flashcards.NewOrOwned | bot.py:96-97 | a card is new for a user exactly when the user does not own it, so a due card is never new |
| Flashcards.AssignedIsDue | bot.py:109-110 | right after assignment the card is due for its new owner and no longer new for them |
| Flashcards.GradedNotDue | bot.py:128-131 | a card just graded is due for nobody at that instant |
| Flashcards.GradeOnlyTouchesCard | bot.py:130-131 | grading one card leaves every other card's membership of every due and new list unchanged |
| Flashcards.FlashcardBot.constructor | bot.py:28-36 | on the first start the bot has an empty table and no pending cards |
| Flashcards.FlashcardBot.AddCard | bot.py:57-58 | one insert-or-ignore on the stored table; pending cards untouched |
| Flashcards.FlashcardBot.AddExistingCards | bot.py:52-58 | the loop of inserts leaves exactly the loaded catalog |
| Flashcards.FlashcardBot.AssignCardToUser | bot.py:105-113 | the stored table becomes the assigned table; pending cards untouched |
| Flashcards.FlashcardBot.UpdateFlashcardReview | bot.py:116-134 | the read-modify-write of one row gives the graded table, or fails and changes nothing when the card is missing |
| Flashcards.FlashcardBot.Learn | bot.py:143-157 | with no new card nothing changes. Otherwise the first new card (possibly another user's) becomes pending and is assigned to the user, after which it is due for them and not new |
| Flashcards.FlashcardBot.Review | bot.py:160-173 | the table is unchanged. With no due card the pending card stays as it was; otherwise the first due card becomes pending |
| Flashcards.FlashcardBot.Answer | bot.py:176-198 | with no pending card nothing changes. Otherwise the pending card is graded as known, cleared, and `review` runs. Any new pending card is due for the user and is never the card just graded |

## Left out

- Telegram transport: async handlers, reply texts, photo sending and polling. Only the handlers' effect on the table and on the pending card is modelled; the reply is reduced to which card is shown.
- SQLite mechanics: connections, commits, the schema DDL and the `datetime` adapter. The table is an in-memory sequence and the timestamps are integers.
- `datetime.now()`: the clock is an input, one instant per handler call.
- The directory listing in `add_existing_cards_to_db` (`os.path.exists`, `listdir`, `isfile`, path joining). The model takes the list of image paths that listing yields; a missing folder is the empty list.
- The `users` table, `add_user_to_db` and `start`: nothing reads that table.
- Flashcards.FlashcardBot.UpdateFlashcardReview: a missing card is reported as `ok == false` with nothing changed, where the code raises an exception from `fetchone()[0]`. In the model the handlers never reach that case, because a pending card always exists.
- Flashcards.NextReview: `datetime.now() + timedelta(days=interval)` raises `OverflowError` once the result passes year 9999 (bot.py:65). The model's integers are unbounded, so that error is not modelled. From 2026 about 2,912,000 days remain, so the 22nd doubling (2^22 = 4,194,304 days) already raises. Two users who keep taking the same card from each other with `learn` reset its review date but keep its interval (bot.py:109-110, 152-154), so about 22 answers reach this. In the code the error is raised before the `UPDATE` and before the `pop` (bot.py:121-131, 195): the table is unchanged and the card stays pending. The model instead schedules the review that far ahead.
- Card ids: ids are modelled as row positions. Real `AUTOINCREMENT` rowids can have gaps, because every start re-runs `add_existing_cards_to_db` (bot.py:203) and an `INSERT OR IGNORE` that hits the unique path may still use up a rowid (bot.py:57-58). Ids are only compared for equality and order, and row positions keep that order.
- Flashcards.Where: the query results carry only card ids, not the image paths the code also selects; the path of card `k` is `cards[k - 1].imagePath`.
- main.py file and process I/O: archive extraction, the `typst` subprocess, copying files, reading and writing files, and the module-level script. `SectionFile.typstText` records what would be written.
- Directories: the `output_dir`/`images_dir` prefix that `os.path.join` adds (main.py:48, 54) is not part of the modelled file names. `Sections.PagesInDirectory` shows that a directory with no `.` and no `{`, such as the script's `output_images` (main.py:98), leaves the replacements at main.py:13 touching only the file name. `os.path.join` is modelled there as `dir + "/" + name`, on a POSIX-style path.
- The renderer's page numbering: `typst compile` fills `{p}` with each page's number, modelled as `Sections.Decimal` of that number. How many pages a section has is not modelled.
- Restarts: `init_db` uses `CREATE TABLE IF NOT EXISTS` on a database file (bot.py:10, 15-16, 28-36). Only the first start begins with an empty table; every later start keeps the table and loses all pending cards in `user_data`. The constructor models the first start. Every method contract holds from any `Valid()` state, including a kept table with an empty `currentCard` map.
- The introduction piece (index 0) is skipped by the code's `continue` before any processing, so it has no model beyond not producing a section.

=== FILE: comments.dfy ===
/** Comment removal of the document-splitting script (main.py, line 87): one
    regular-expression substitution by the empty string, whose pattern has a
    line-comment alternative tried first and a block-comment alternative with a
    lazy body. A line comment runs from its two slashes up to, not including,
    the next newline; a block comment runs from its slash-star opener through
    the first star-slash closer after it; an opener with no closer after it
    starts no comment. */
module Comments {
  import opened PyStr
  import opened ReSub

  /** Length of the comment the pattern matches at the start of `x`, 0 when
      it matches none there. The line-comment alternative is tried first. */
  function CommentMatch(x: string): (n: nat)
    ensures n <= |x|
    ensures !StartsWith(x, "//") && !StartsWith(x, "/*") ==> n == 0
    // line comment: its `.*` is greedy, so it stops only at a newline or at the end
    ensures StartsWith(x, "//") ==>
      2 <= n && (forall k :: 0 <= k < n ==> x[k] != '\n') && (n == |x| || x[n] == '\n')
    // block comment: its body is lazy, so it ends at the first closer after the opener
    ensures StartsWith(x, "/*") && n == 0 ==> forall k: nat :: 2 <= k ==> !OccursAt(x, "*/", k)
    ensures StartsWith(x, "/*") && n > 0 ==>
      4 <= n && OccursAt(x, "*/", n - 2) && forall k: nat :: 2 <= k < n - 2 ==> !OccursAt(x, "*/", k)
  {
    if StartsWith(x, "//") then IndexOfAny(x, {'\n'}, 2)
    else if StartsWith(x, "/*") then
      match Find(x, "*/", 2)
      case Some(k) => k + 2
      case None => 0
    else 0
  }

  /** The script's comment-free text. */
  function RemoveComments(s: string): (r: string)
    ensures |r| <= |s|
  {
    Sub(s, CommentMatch)
  }

  /** The removal cuts `s` into kept characters and comments that give back
      `s` when put together, each comment being exactly what the pattern
      matches at its position and each kept character standing where the
      pattern matches nothing; the result is the kept characters in order. */
  lemma Decomposition(s: string)
    ensures var ps := Scan(s, CommentMatch);
            Flatten(ps) == s && Faithful(ps, CommentMatch) && RemoveComments(s) == KeptText(ps)
  {
    ScanCovers(s, CommentMatch);
    ScanFaithful(s, CommentMatch);
  }

  /** Text without a line-comment opener whose every block-comment opener is
      left unclosed is kept as it is; in particular text with no opener of
      either kind is unchanged. */
  lemma NoCommentUnchanged(s: string)
    requires !Contains(s, "//")
    requires forall k: nat, j: nat :: OccursAt(s, "/*", k) && k + 2 <= j ==> !OccursAt(s, "*/", j)
    ensures RemoveComments(s) == s
  {
    forall k | 0 <= k < |s|
      ensures !IsMatch(s[k..], CommentMatch(s[k..]))
    {
      var x := s[k..];
      if StartsWith(x, "//") {
        assert x[..2] == s[k..k + 2];
        assert OccursAt(s, "//", k);
        assert false;
      } else if StartsWith(x, "/*") && CommentMatch(x) > 0 {
        var n := CommentMatch(x);
        assert x[..2] == s[k..k + 2];
        assert x[n - 2..n] == s[k + n - 2..k + n];
        assert OccursAt(s, "/*", k) && OccursAt(s, "*/", k + n - 2);
        assert false;
      }
    }
    SubNoMatch(s, CommentMatch);
  }
}

=== FILE: flashcards.dfy ===
/** The card scheduler of the flashcard bot (bot.py): a table of cards, each
    with an image, a review interval in days, the instant of its next review
    and at most one owner, and, per user, the card currently waiting for an
    answer. Cards are loaded from a list of image paths, handed to a user by
    `learn`, shown again by `review` once due, and graded by `answer`, which
    always counts the answer as known, doubles the card's interval and then
    moves on to the next due card. Grading also has a reset to one day for a
    failed card, which `answer` never uses. */
module Flashcards {
  import opened Wrappers

  /** A chat user's id. */
  type UserId = int

  /** A card's id, modelled as its row position: the card with id `k` is the
      `k`-th row of the table. The stored rowids grow in insertion order and
      rows are never deleted, so positions keep the rowids' order. */
  type CardId = nat

  /** An instant, in microseconds (the resolution of the stored timestamps). */
  type Time = int

  const MicrosPerDay: int := 86_400_000_000

  /** The interval a newly loaded card gets: the column's default. */
  const DefaultInterval: int := 1

  /** One row of the card table. */
  datatype Flashcard = Flashcard(
    imagePath: string,
    interval: int,
    reviewDate: Time,
    owner: Option<UserId>)

  // ---------------------------------------------------------------------
  // The table and its invariants
  // ---------------------------------------------------------------------

  predicate HasCard(cards: seq<Flashcard>, id: CardId) {
    1 <= id <= |cards|
  }

  /** The image path column is UNIQUE. */
  predicate PathsUnique(cards: seq<Flashcard>) {
    forall i, j :: 0 <= i < j < |cards| ==> cards[i].imagePath != cards[j].imagePath
  }

  /** `n` is 1, 2, 4, 8, ... */
  predicate PowerOfTwo(n: int)
    decreases if n < 1 then 0 else n
  {
    n == 1 || (n > 1 && n % 2 == 0 && PowerOfTwo(n / 2))
  }

  /** Intervals start at 1 and are only ever doubled or reset to 1, so every
      interval is a power of two, in particular at least one day. */
  predicate IntervalsPowersOfTwo(cards: seq<Flashcard>) {
    forall i :: 0 <= i < |cards| ==> PowerOfTwo(cards[i].interval)
  }

  predicate TableInvariant(cards: seq<Flashcard>) {
    PathsUnique(cards) && IntervalsPowersOfTwo(cards)
  }

  predicate PathIn(cards: seq<Flashcard>, path: string) {
    exists i :: 0 <= i < |cards| && cards[i].imagePath == path
  }

  // ---------------------------------------------------------------------
  // Catalog load (bot.py, lines 42-61)
  // ---------------------------------------------------------------------

  /** The row a newly loaded image gets: default interval, due at once, no owner. */
  function NewCard(path: string, now: Time): Flashcard {
    Flashcard(path, DefaultInterval, now, None)
  }

  /** `INSERT OR IGNORE` of one image path: a path already in the table
      leaves the table as it is, a new path is appended as a new card. */
  function InsertOrIgnore(cards: seq<Flashcard>, path: string, now: Time): (r: seq<Flashcard>)
    ensures PathIn(r, path)
    ensures cards <= r && |r| <= |cards| + 1
    ensures PathIn(cards, path) ==> r == cards
    ensures !PathIn(cards, path) ==> r[|cards|] == NewCard(path, now)
    ensures TableInvariant(cards) ==> TableInvariant(r)
  {
    if PathIn(cards, path) then cards
    else
      var r := cards + [NewCard(path, now)];
      assert r[|cards|].imagePath == path;
      r
  }

  /** Loading a list of image paths, one insert after the other. */
  function LoadCatalog(cards: seq<Flashcard>, paths: seq<string>, now: Time): (r: seq<Flashcard>)
    ensures cards <= r
    ensures TableInvariant(cards) ==> TableInvariant(r)
    decreases |paths|
  {
    if |paths| == 0 then cards
    else InsertOrIgnore(LoadCatalog(cards, paths[..|paths| - 1], now), paths[|paths| - 1], now)
  }

  /** Every row of `r` after the first `|cards|` is a fresh card for one of `paths`. */
  predicate RowsAddedFrom(cards: seq<Flashcard>, r: seq<Flashcard>, paths: seq<string>, now: Time) {
    forall i :: |cards| <= i < |r| ==> r[i].imagePath in paths && r[i] == NewCard(r[i].imagePath, now)
  }

  /** After a load every listed path is in the table, and every row the load
      added is a fresh card for one of the listed paths. */
  lemma {:induction false} LoadCatalogContents(cards: seq<Flashcard>, paths: seq<string>, now: Time)
    ensures forall p :: p in paths ==> PathIn(LoadCatalog(cards, paths, now), p)
    ensures RowsAddedFrom(cards, LoadCatalog(cards, paths, now), paths, now)
    decreases |paths|
  {
    if |paths| > 0 {
      var init := paths[..|paths| - 1];
      var last := paths[|paths| - 1];
      LoadCatalogContents(cards, init, now);
      var t := LoadCatalog(cards, init, now);
      var r := InsertOrIgnore(t, last, now);
      assert paths == init + [last];
      forall p | p in paths
        ensures PathIn(r, p)
      {
        if p != last {
          assert p in init;
          var i :| 0 <= i < |t| && t[i].imagePath == p;
          assert r[i] == t[i];
        }
      }
      assert RowsAddedFrom(cards, t, init, now);
      forall i | |cards| <= i < |r|
        ensures r[i].imagePath in paths && r[i] == NewCard(r[i].imagePath, now)
      {
        if i < |t| {
          assert r[i] == t[i] && t[i].imagePath in init;
        } else {
          assert i == |t| && !PathIn(t, last);
          assert r[i] == NewCard(last, now);
        }
        assert last in paths;
      }
    }
  }

  /** A table that already holds every listed path is left as it is by a load. */
  lemma {:induction false} LoadCatalogPresent(cards: seq<Flashcard>, paths: seq<string>, now: Time)
    requires forall p :: p in paths ==> PathIn(cards, p)
    ensures LoadCatalog(cards, paths, now) == cards
    decreases |paths|
  {
    if |paths| > 0 {
      LoadCatalogPresent(cards, paths[..|paths| - 1], now);
    }
  }

  /** Loading the same paths a second time, at any instant, changes nothing. */
  lemma LoadCatalogIdempotent(cards: seq<Flashcard>, paths: seq<string>, now: Time, later: Time)
    ensures LoadCatalog(LoadCatalog(cards, paths, now), paths, later) == LoadCatalog(cards, paths, now)
  {
    LoadCatalogContents(cards, paths, now);
    LoadCatalogPresent(LoadCatalog(cards, paths, now), paths, later);
  }

  // ---------------------------------------------------------------------
  // Grading (bot.py, lines 64-65 and 116-134)
  // ---------------------------------------------------------------------

  /** `calculate_next_review`: `interval` days after `now`. */
  function NextReview(interval: int, now: Time): (t: Time)
    ensures interval >= 1 ==> t >= now + MicrosPerDay
    ensures t - now == interval * MicrosPerDay
  {
    now + interval * MicrosPerDay
  }

  /** The interval after a grade: doubled on success, back to 1 on failure. */
  function NextInterval(interval: int, success: bool): (r: int)
    ensures PowerOfTwo(interval) ==> PowerOfTwo(r) && r >= 1
    ensures success ==> r == 2 * interval
    ensures !success ==> r == 1
  {
    if success then interval * 2 else 1
  }

  /** `update_flashcard_review`: `None` when there is no card with that id
      (the row lookup finds nothing and the update fails); otherwise the table
      in which only that card's interval and next review have changed. */
  function Grade(cards: seq<Flashcard>, id: CardId, success: bool, now: Time): (r: Option<seq<Flashcard>>)
    ensures r.None? <==> !HasCard(cards, id)
    ensures r.Some? ==>
      var t := r.value;
      |t| == |cards| &&
      t[id - 1].interval == NextInterval(cards[id - 1].interval, success) &&
      t[id - 1].reviewDate == NextReview(t[id - 1].interval, now) &&
      t[id - 1].imagePath == cards[id - 1].imagePath &&
      t[id - 1].owner == cards[id - 1].owner &&
      forall i :: 0 <= i < |cards| && i != id - 1 ==> t[i] == cards[i]
  {
    if !HasCard(cards, id) then None
    else
      var c := cards[id - 1];
      var interval := NextInterval(c.interval, success);
      Some(cards[id - 1 := c.(interval := interval, reviewDate := NextReview(interval, now))])
  }

  /** Grading keeps the table invariant, and the graded card's next review
      is at least a day after `now`. */
  lemma GradeKeepsInvariant(cards: seq<Flashcard>, id: CardId, success: bool, now: Time)
    requires TableInvariant(cards) && HasCard(cards, id)
    ensures var t := Grade(cards, id, success, now).value;
            TableInvariant(t) && t[id - 1].reviewDate >= now + MicrosPerDay
  {
    var t := Grade(cards, id, success, now).value;
    assert forall i :: 0 <= i < |t| ==> t[i].imagePath == cards[i].imagePath;
  }

  // ---------------------------------------------------------------------
  // Assignment (bot.py, lines 105-113)
  // ---------------------------------------------------------------------

  /** `assign_card_to_user`: the card gets owner `u` and is due at `now`; an
      id with no row updates nothing. */
  function Assign(cards: seq<Flashcard>, id: CardId, u: UserId, now: Time): (r: seq<Flashcard>)
    ensures |r| == |cards|
    ensures HasCard(cards, id) ==>
      r[id - 1].owner == Some(u) && r[id - 1].reviewDate == now &&
      r[id - 1].interval == cards[id - 1].interval && r[id - 1].imagePath == cards[id - 1].imagePath
    ensures forall i :: 0 <= i < |cards| && i != id - 1 ==> r[i] == cards[i]
    ensures !HasCard(cards, id) ==> r == cards
    ensures TableInvariant(cards) ==> TableInvariant(r)
  {
    if !HasCard(cards, id) then cards
    else
      var r := cards[id - 1 := cards[id - 1].(owner := Some(u), reviewDate := now)];
      assert forall i :: 0 <= i < |r| ==> r[i].imagePath == cards[i].imagePath;
      r
  }

  // ---------------------------------------------------------------------
  // Queries (bot.py, lines 79-102)
  // ---------------------------------------------------------------------

  /** The ids are in strictly ascending order: the order of a scan of the
      table by row id, which is what the unordered queries return. */
  predicate Ascending(ids: seq<CardId>) {
    forall i, j :: 0 <= i < j < |ids| ==> ids[i] < ids[j]
  }

  /** The ids of the rows that satisfy `keep`, in ascending order. */
  function Where(cards: seq<Flashcard>, keep: Flashcard -> bool): (ids: seq<CardId>)
    ensures forall id :: id in ids <==> HasCard(cards, id) && keep(cards[id - 1])
    ensures Ascending(ids)
    decreases |cards|
  {
    if |cards| == 0 then []
    else
      var init := cards[..|cards| - 1];
      var ids := Where(init, keep);
      assert forall id :: HasCard(init, id) ==> init[id - 1] == cards[id - 1];
      if keep(cards[|cards| - 1]) then
        AscendingSnoc(ids, |cards|);
        ids + [|cards|]
      else ids
  }

  lemma AscendingSnoc(ids: seq<CardId>, n: CardId)
    requires Ascending(ids) && forall id :: id in ids ==> id < n
    ensures Ascending(ids + [n])
  {
    assert forall k :: 0 <= k < |ids| ==> ids[k] in ids;
  }

  /** `owner = u AND review_date <= now`. */
  predicate IsDue(c: Flashcard, u: UserId, now: Time) {
    c.owner == Some(u) && c.reviewDate <= now
  }

  /** `owner IS NULL OR owner != u`: a card nobody owns or somebody else owns. */
  predicate IsNewFor(c: Flashcard, u: UserId) {
    c.owner.None? || c.owner.value != u
  }

  /** `get_due_flashcards`: exactly the cards of `u` whose review is due. */
  function DueFlashcards(cards: seq<Flashcard>, u: UserId, now: Time): (ids: seq<CardId>)
    ensures forall id :: id in ids <==>
      HasCard(cards, id) && cards[id - 1].owner == Some(u) && cards[id - 1].reviewDate <= now
    ensures Ascending(ids)
  {
    Where(cards, c => IsDue(c, u, now))
  }

  /** `get_new_flashcards`: exactly the cards `u` does not own, including the
      cards other users own. */
  function NewFlashcards(cards: seq<Flashcard>, u: UserId): (ids: seq<CardId>)
    ensures forall id :: id in ids <==> HasCard(cards, id) && cards[id - 1].owner != Some(u)
    ensures Ascending(ids)
  {
    Where(cards, c => IsNewFor(c, u))
  }

  /** Every card is new for `u` or owned by `u`, never both; due cards are
      never new. */
  lemma NewOrOwned(cards: seq<Flashcard>, u: UserId, now: Time, id: CardId)
    requires HasCard(cards, id)
    ensures id in NewFlashcards(cards, u) <==> cards[id - 1].owner != Some(u)
    ensures id in DueFlashcards(cards, u, now) ==> id !in NewFlashcards(cards, u)
  {
  }

  /** The card `learn` hands out is due for its new owner right away and no
      longer new for them; its interval is kept. */
  lemma AssignedIsDue(cards: seq<Flashcard>, id: CardId, u: UserId, now: Time)
    requires HasCard(cards, id)
    ensures id in DueFlashcards(Assign(cards, id, u, now), u, now)
    ensures id !in NewFlashcards(Assign(cards, id, u, now), u)
  {
    var r := Assign(cards, id, u, now);
    assert r[id - 1].owner == Some(u) && r[id - 1].reviewDate <= now;
  }

  /** A card just graded at `now` is due for nobody at `now`. */
  lemma GradedNotDue(cards: seq<Flashcard>, id: CardId, success: bool, now: Time, u: UserId)
    requires TableInvariant(cards) && HasCard(cards, id)
    ensures id !in DueFlashcards(Grade(cards, id, success, now).value, u, now)
  {
    GradeKeepsInvariant(cards, id, success, now);
  }

  /** Grading one card leaves the due and new lists of every user as they
      were, apart from that card. */
  lemma GradeOnlyTouchesCard(cards: seq<Flashcard>, id: CardId, success: bool, now: Time, u: UserId, other: CardId)
    requires HasCard(cards, id) && other != id
    ensures var t := Grade(cards, id, success, now).value;
            (other in DueFlashcards(t, u, now) <==> other in DueFlashcards(cards, u, now)) &&
            (other in NewFlashcards(t, u) <==> other in NewFlashcards(cards, u))
  {
    var t := Grade(cards, id, success, now).value;
    if HasCard(cards, other) {
      assert t[other - 1] == cards[other - 1];
    }
  }

  // ---------------------------------------------------------------------
  // The bot: the card table and the per-user pending card
  // ---------------------------------------------------------------------

  /** What `answer` does: nothing when no card is pending, otherwise the
      graded card and the card `review` then presents, if any. */
  datatype AnswerReply = NoPendingCard | Graded(card: CardId, next: Option<CardId>)

  class FlashcardBot {
    /** The card table, row `k - 1` holding the card with id `k`. */
    var cards: seq<Flashcard>
    /** `current_card` of each user's session data. */
    var currentCard: map<UserId, CardId>

    ghost predicate Valid()
      reads this
    {
      TableInvariant(cards) &&
      forall u :: u in currentCard ==> HasCard(cards, currentCard[u])
    }

    constructor ()
      ensures Valid() && cards == [] && currentCard == map[]
    {
      cards := [];
      currentCard := map[];
    }

    /** The insert of one image file found by `add_existing_cards_to_db`. */
    method AddCard(path: string, now: Time)
      requires Valid()
      modifies this
      ensures Valid()
      ensures cards == InsertOrIgnore(old(cards), path, now) && currentCard == old(currentCard)
    {
      if !PathIn(cards, path) {
        cards := cards + [NewCard(path, now)];
      }
    }

    /** `add_existing_cards_to_db`: one insert per listed image file. */
    method AddExistingCards(paths: seq<string>, now: Time)
      requires Valid()
      modifies this
      ensures Valid()
      ensures cards == LoadCatalog(old(cards), paths, now) && currentCard == old(currentCard)
    {
      for i := 0 to |paths|
        invariant Valid() && currentCard == old(currentCard)
        invariant cards == LoadCatalog(old(cards), paths[..i], now)
      {
        assert paths[..i + 1][..i] == paths[..i];
        AddCard(paths[i], now);
      }
      assert paths[..|paths|] == paths;
    }

    /** `assign_card_to_user`. */
    method AssignCardToUser(id: CardId, u: UserId, now: Time)
      requires Valid()
      modifies this
      ensures Valid()
      ensures cards == Assign(old(cards), id, u, now) && currentCard == old(currentCard)
    {
      if 1 <= id <= |cards| {
        cards := cards[id - 1 := cards[id - 1].(owner := Some(u), reviewDate := now)];
      }
    }

    /** `update_flashcard_review`: read the card's interval, double it or reset
      it, and write it back with the next review date. `ok` is false, and
      nothing changes, when there is no card with that id. */
    method UpdateFlashcardReview(id: CardId, success: bool, now: Time) returns (ok: bool)
      requires Valid()
      modifies this
      ensures Valid()
      ensures ok <==> HasCard(old(cards), id)
      ensures Grade(old(cards), id, success, now) == (if ok then Some(cards) else None)
      ensures !ok ==> cards == old(cards)
      ensures currentCard == old(currentCard)
    {
      if !(1 <= id <= |cards|) {
        return false;
      }
      GradeKeepsInvariant(cards, id, success, now);
      var interval := cards[id - 1].interval;
      if success {
        interval := interval * 2;
      } else {
        interval := 1;
      }
      var nextReviewDate := NextReview(interval, now);
      cards := cards[id - 1 := cards[id - 1].(interval := interval, reviewDate := nextReviewDate)];
      ok := true;
    }

    /** `learn`: take the first card `u` does not own, make it `u`'s pending
      card and assign it to `u`; with no such card nothing changes. */
    method Learn(u: UserId, now: Time) returns (shown: Option<CardId>)
      requires Valid()
      modifies this
      ensures Valid()
      ensures var unowned := NewFlashcards(old(cards), u);
              if unowned == [] then
                shown == None && cards == old(cards) && currentCard == old(currentCard)
              else
                shown == Some(unowned[0]) &&
                cards == Assign(old(cards), unowned[0], u, now) &&
                currentCard == old(currentCard)[u := unowned[0]]
      ensures shown.Some? ==>
        shown.value in DueFlashcards(cards, u, now) && shown.value !in NewFlashcards(cards, u)
    {
      var flashcards := NewFlashcards(cards, u);
      if flashcards == [] {
        return None;
      }
      var cardId := flashcards[0];
      assert cardId in flashcards;
      currentCard := currentCard[u := cardId];
      AssignCardToUser(cardId, u, now);
      AssignedIsDue(old(cards), cardId, u, now);
      shown := Some(cardId);
    }

    /** `review`: make the first due card of `u` the pending card; with no
      due card nothing changes (an earlier pending card stays). */
    method Review(u: UserId, now: Time) returns (shown: Option<CardId>)
      requires Valid()
      modifies this
      ensures Valid()
      ensures cards == old(cards)
      ensures var due := DueFlashcards(cards, u, now);
              if due == [] then
                shown == None && currentCard == old(currentCard)
              else
                shown == Some(due[0]) && currentCard == old(currentCard)[u := due[0]]
      ensures shown.Some? ==> shown.value in DueFlashcards(cards, u, now)
    {
      var flashcards := DueFlashcards(cards, u, now);
      if flashcards == [] {
        return None;
      }
      var cardId := flashcards[0];
      assert cardId in flashcards;
      currentCard := currentCard[u := cardId];
      shown := Some(cardId);
    }

    /** `answer`: with no pending card nothing changes; otherwise the pending
      card is graded as known, the pending card is cleared and `review` runs.
      Afterwards the pending card, if any, is a due card of `u` and is not
      the card just graded. */
    method Answer(u: UserId, now: Time) returns (reply: AnswerReply)
      requires Valid()
      modifies this
      ensures Valid()
      ensures u !in old(currentCard) ==>
        reply == NoPendingCard && cards == old(cards) && currentCard == old(currentCard)
      ensures u in old(currentCard) ==>
        reply.Graded? && reply.card == old(currentCard)[u] &&
        Grade(old(cards), reply.card, true, now) == Some(cards) &&
        (var due := DueFlashcards(cards, u, now);
         if due == [] then
           reply.next == None && currentCard == old(currentCard) - {u}
         else
           reply.next == Some(due[0]) && currentCard == old(currentCard)[u := due[0]])
      ensures u in currentCard ==>
        currentCard[u] in DueFlashcards(cards, u, now) &&
        reply.Graded? && currentCard[u] != reply.card
    {
      if u !in currentCard {
        return NoPendingCard;
      }
      var cardId := currentCard[u];
      var success := true;
      var ok := UpdateFlashcardReview(cardId, success, now);
      GradedNotDue(old(cards), cardId, success, now, u);
      currentCard := currentCard - {u};
      var next := Review(u, now);
      reply := Graded(cardId, next);
    }
  }
}

=== FILE: name_words.dfy ===
/** A reference definition of `sanitize_filename` (main.py, lines 7-10): the
    sanitised name is the input's words, the maximal runs of allowed
    characters, joined by single `_`. The three substitutions never appear in
    the definition; the proof goes through them one at a time, showing that
    each keeps the runs of non-`_` characters and that a name without doubled
    or outer `_` is its runs joined by `_`. */
module NameWords {
  import opened PyStr
  import opened Sanitize

  predicate NotUnderscore(c: char) {
    c != '_'
  }

  predicate IsUnderscore(c: char) {
    c == '_'
  }

  /** Every character of `w` satisfies `keep`. */
  predicate AllKept(w: string, keep: char -> bool) {
    forall k :: 0 <= k < |w| ==> keep(w[k])
  }

  /** End of the run of characters satisfying `keep` that starts at `i`. */
  function RunEnd(t: string, keep: char -> bool, i: nat): (e: nat)
    requires i <= |t|
    ensures i <= e <= |t|
    ensures forall k :: i <= k < e ==> keep(t[k])
    ensures e < |t| ==> !keep(t[e])
    decreases |t| - i
  {
    if i == |t| || !keep(t[i]) then i else RunEnd(t, keep, i + 1)
  }

  /** A run is determined by where it starts. */
  lemma RunEndUnique(t: string, keep: char -> bool, i: nat, j: nat)
    requires i <= j <= |t|
    requires forall k :: i <= k < j ==> keep(t[k])
    requires j < |t| ==> !keep(t[j])
    ensures RunEnd(t, keep, i) == j
  {
    var e := RunEnd(t, keep, i);
    assert e < |t| ==> !keep(t[e]);
    assert j < |t| ==> !keep(t[j]);
  }

  /** The maximal non-empty runs of characters of `t` satisfying `keep`, in order. */
  function Runs(t: string, keep: char -> bool): (r: seq<string>)
    ensures forall w :: w in r ==> |w| > 0 && AllKept(w, keep)
    decreases |t|
  {
    if |t| == 0 then []
    else if !keep(t[0]) then Runs(t[1..], keep)
    else
      var e := RunEnd(t, keep, 0);
      assert forall k :: 0 <= k < e ==> t[..e][k] == t[k];
      [t[..e]] + Runs(t[e..], keep)
  }

  /** The words of a title: its maximal runs of allowed characters. */
  function Words(s: string): (r: seq<string>)
    ensures forall w :: w in r ==> |w| > 0 && AllKept(w, IsAllowed)
  {
    Runs(s, IsAllowed)
  }

  /** Two strings that agree on which positions are kept, and on the kept
      characters themselves, have the same runs. */
  lemma {:induction false} RunsTransfer(s: string, t: string, keepS: char -> bool, keepT: char -> bool)
    requires |s| == |t|
    requires forall k :: 0 <= k < |s| ==> keepS(s[k]) == keepT(t[k])
    requires forall k :: 0 <= k < |s| && keepS(s[k]) ==> t[k] == s[k]
    ensures Runs(s, keepS) == Runs(t, keepT)
    decreases |s|
  {
    if |s| > 0 {
      var n := if keepS(s[0]) then RunEnd(s, keepS, 0) else 1;
      if keepS(s[0]) {
        RunEndUnique(t, keepT, 0, n);
        assert t[..n] == s[..n];
      }
      assert forall k :: 0 <= k < |s| - n ==> s[n..][k] == s[n + k] && t[n..][k] == t[n + k];
      RunsTransfer(s[n..], t[n..], keepS, keepT);
      assert s[1..] == s[n..] <== !keepS(s[0]);
      assert t[1..] == t[n..] <== !keepS(s[0]);
    }
  }

  /** Leading `_` do not start a run. */
  lemma {:induction false} RunsSkip(u: string, b: string)
    requires forall k :: 0 <= k < |u| ==> u[k] == '_'
    ensures Runs(u + b, NotUnderscore) == Runs(b, NotUnderscore)
    decreases |u|
  {
    if |u| > 0 {
      assert (u + b)[1..] == u[1..] + b;
      RunsSkip(u[1..], b);
    } else {
      assert u + b == b;
    }
  }

  /** A run followed by `_` or by nothing is the first run. */
  lemma RunsCons(a: string, y: string)
    requires |a| > 0 && AllKept(a, NotUnderscore)
    requires |y| == 0 || y[0] == '_'
    ensures Runs(a + y, NotUnderscore) == [a] + Runs(y, NotUnderscore)
  {
    var t := a + y;
    RunEndUnique(t, NotUnderscore, 0, |a|);
    assert t[..|a|] == a && t[|a|..] == y;
  }

  /** Collapsing passes a character other than `_` through. */
  lemma CollapseCons(c: char, x: string)
    requires c != '_'
    ensures CollapseUnderscores([c] + x) == [c] + CollapseUnderscores(x)
  {
    assert ([c] + x)[1..] == x;
  }

  /** Collapsing passes a run of non-`_` characters through unchanged. */
  lemma {:induction false} CollapseRun(a: string, b: string)
    requires AllKept(a, NotUnderscore)
    ensures CollapseUnderscores(a + b) == a + CollapseUnderscores(b)
    decreases |a|
  {
    if |a| > 0 {
      var rest := a[1..];
      assert AllKept(rest, NotUnderscore) by {
        assert forall k :: 0 <= k < |rest| ==> rest[k] == a[k + 1];
      }
      calc {
        CollapseUnderscores(a + b);
        { assert a + b == [a[0]] + (rest + b); }
        CollapseUnderscores([a[0]] + (rest + b));
        { CollapseCons(a[0], rest + b); }
        [a[0]] + CollapseUnderscores(rest + b);
        { CollapseRun(rest, b); }
        [a[0]] + (rest + CollapseUnderscores(b));
        { assert a == [a[0]] + rest; }
        a + CollapseUnderscores(b);
      }
    } else {
      assert a + b == b;
    }
  }

  /** Collapsing turns a run of `_` into one `_`. */
  lemma {:induction false} CollapseUnderscoreRun(u: string, b: string)
    requires |u| > 0 && AllKept(u, IsUnderscore)
    requires |b| == 0 || b[0] != '_'
    ensures CollapseUnderscores(u + b) == "_" + CollapseUnderscores(b)
    decreases |u|
  {
    assert (u + b)[1..] == u[1..] + b;
    if |u| > 1 {
      CollapseUnderscoreRun(u[1..], b);
    } else {
      assert u + b == "_" + b;
    }
  }

  /** Collapsing keeps the runs. */
  lemma {:induction false} RunsCollapse(t: string)
    ensures Runs(CollapseUnderscores(t), NotUnderscore) == Runs(t, NotUnderscore)
    decreases |t|
  {
    if |t| > 0 && t[0] == '_' {
      var a, b := FirstRun(t, IsUnderscore);
      RunsCollapse(b);
      RunsCollapseUnderscores(a, b);
    } else if |t| > 0 {
      var a, b := FirstRun(t, NotUnderscore);
      RunsCollapse(b);
      RunsCollapseRun(a, b);
    }
  }

  /** A text starting with a kept character is its first run and the rest. */
  lemma FirstRun(t: string, keep: char -> bool) returns (a: string, b: string)
    requires |t| > 0 && keep(t[0])
    ensures t == a + b && |a| > 0 && |b| < |t| && AllKept(a, keep)
    ensures |b| == 0 || !keep(b[0])
  {
    var e := RunEnd(t, keep, 0);
    a, b := t[..e], t[e..];
    assert forall k :: 0 <= k < e ==> a[k] == t[k];
  }

  /** The step of `RunsCollapse` for a text that starts with a run of `_`. */
  lemma RunsCollapseUnderscores(a: string, b: string)
    requires |a| > 0 && AllKept(a, IsUnderscore)
    requires |b| == 0 || b[0] != '_'
    requires Runs(CollapseUnderscores(b), NotUnderscore) == Runs(b, NotUnderscore)
    ensures Runs(CollapseUnderscores(a + b), NotUnderscore) == Runs(a + b, NotUnderscore)
  {
    CollapseUnderscoreRun(a, b);
    var x := CollapseUnderscores(b);
    assert ("_" + x)[1..] == x;
    RunsSkip(a, b);
  }

  /** The step of `RunsCollapse` for a text that starts with a run of
      non-`_` characters. */
  lemma RunsCollapseRun(a: string, b: string)
    requires |a| > 0 && AllKept(a, NotUnderscore)
    requires |b| == 0 || b[0] == '_'
    requires Runs(CollapseUnderscores(b), NotUnderscore) == Runs(b, NotUnderscore)
    ensures Runs(CollapseUnderscores(a + b), NotUnderscore) == Runs(a + b, NotUnderscore)
  {
    CollapseRun(a, b);
    RunsCons(a, CollapseUnderscores(b));
    RunsCons(a, b);
  }

  /** A trailing `_` does not end a run early or start a new one. */
  lemma {:induction false} RunsSnocUnderscore(x: string)
    ensures Runs(x + "_", NotUnderscore) == Runs(x, NotUnderscore)
    decreases |x|
  {
    var t := x + "_";
    if |x| > 0 {
      if x[0] == '_' {
        assert t[1..] == x[1..] + "_";
        RunsSnocUnderscore(x[1..]);
      } else {
        var e := RunEnd(x, NotUnderscore, 0);
        RunEndUnique(t, NotUnderscore, 0, e);
        assert t[..e] == x[..e] && t[e..] == x[e..] + "_";
        RunsSnocUnderscore(x[e..]);
      }
    } else {
      assert t == "_" && t[1..] == "";
    }
  }

  lemma {:induction false} RunsStripLeft(u: string)
    ensures Runs(StripLeft(u, Underscore), NotUnderscore) == Runs(u, NotUnderscore)
    decreases |u|
  {
    if |u| > 0 && u[0] in Underscore {
      RunsStripLeft(u[1..]);
    }
  }

  lemma {:induction false} RunsStripRight(u: string)
    ensures Runs(StripRight(u, Underscore), NotUnderscore) == Runs(u, NotUnderscore)
    decreases |u|
  {
    if |u| > 0 && u[|u| - 1] in Underscore {
      var init := u[..|u| - 1];
      RunsStripRight(init);
      assert u == init + "_";
      RunsSnocUnderscore(init);
    }
  }

  /** Stripping `_` keeps the runs. */
  lemma RunsStrip(u: string)
    ensures Runs(Strip(u, Underscore), NotUnderscore) == Runs(u, NotUnderscore)
  {
    RunsStripLeft(u);
    RunsStripRight(StripLeft(u, Underscore));
  }

  /** A name without doubled `_` and without `_` at either end. */
  predicate Normal(w: string) {
    NoDoubleUnderscore(w) && (|w| > 0 ==> w[0] != '_' && w[|w| - 1] != '_')
  }

  /** In a normal name, the text after the first run and its `_` is again a
      normal name, it starts a new run, and its runs are the remaining runs. */
  lemma NormalRest(w: string, e: nat)
    requires Normal(w) && |w| > 0 && e == RunEnd(w, NotUnderscore, 0) && e < |w|
    ensures e + 1 < |w| && w[e] == '_'
    ensures Normal(w[e + 1..]) && |Runs(w[e + 1..], NotUnderscore)| > 0
    ensures Runs(w, NotUnderscore) == [w[..e]] + Runs(w[e + 1..], NotUnderscore)
  {
    var v := w[e + 1..];
    assert w[e] == '_' && e + 1 < |w| && w[e + 1] != '_';
    assert w[e..][1..] == v;
    NoDoubleSlice(w, e + 1, |w|);
    assert v[0] == w[e + 1] && v[|v| - 1] == w[|w| - 1];
  }

  /** A normal name is its runs joined by `_`. */
  lemma {:induction false} JoinRunsOfNormal(w: string)
    requires Normal(w)
    ensures Join(Runs(w, NotUnderscore), "_") == w
    decreases |w|
  {
    if |w| > 0 {
      var e := RunEnd(w, NotUnderscore, 0);
      if e < |w| {
        var v := w[e + 1..];
        NormalRest(w, e);
        calc {
          Join(Runs(w, NotUnderscore), "_");
          Join([w[..e]] + Runs(v, NotUnderscore), "_");
          { JoinCons(w[..e], Runs(v, NotUnderscore), "_"); }
          w[..e] + "_" + Join(Runs(v, NotUnderscore), "_");
          { JoinRunsOfNormal(v); }
          w[..e] + "_" + v;
          { assert w[e..e + 1] == "_"; ThreeSlices(w, e, e + 1); }
          w;
        }
      } else {
        assert w[..e] == w && w[e..] == "";
      }
    }
  }

  /** `sanitize_filename(s)` is the words of `s` joined by single `_`. */
  lemma SanitizeIsJoinOfWords(s: string)
    ensures SanitizeFilename(s) == Join(Words(s), "_")
  {
    var u := ReplaceDisallowed(s);
    RunsTransfer(s, u, IsAllowed, NotUnderscore);
    var t := CollapseUnderscores(u);
    RunsCollapse(u);
    RunsStrip(t);
    JoinRunsOfNormal(SanitizeFilename(s));
  }
}

=== FILE: pystr.dfy ===
/** Python `str` operations that the document-splitting script relies on:
    searching, `str.split(sep)`, `str.split(sep, 1)`, `str.replace(pat, repl)`,
    `str.strip(chars)` and `str.strip()`. Every one is written as a left-to-right scan over
    `seq<char>`. */
module PyStr {
  import opened Wrappers

  /** `pat` occurs in `s` starting at index `k`. */
  predicate OccursAt(s: string, pat: string, k: nat) {
    k + |pat| <= |s| && s[k..k + |pat|] == pat
  }

  predicate StartsWith(s: string, pat: string) {
    OccursAt(s, pat, 0)
  }

  /** `pat in s` for Python strings. */
  predicate Contains(s: string, pat: string) {
    exists k :: 0 <= k <= |s| && OccursAt(s, pat, k)
  }

  /** An occurrence in a slice of `s` is an occurrence in `s`. */
  lemma OccursInSlice(s: string, i: nat, j: nat, pat: string, k: nat)
    requires i <= j <= |s| && OccursAt(s[i..j], pat, k)
    ensures OccursAt(s, pat, i + k)
  {
    var a, b := s[i..j][k..k + |pat|], s[i + k..i + k + |pat|];
    forall t | 0 <= t < |pat|
      ensures a[t] == b[t]
    {
      assert a[t] == s[i..j][k + t] == s[i + (k + t)];
    }
  }

  /** What a slice of `s` contains, `s` contains. */
  lemma ContainsInSlice(s: string, i: nat, j: nat, pat: string)
    requires i <= j <= |s|
    ensures Contains(s[i..j], pat) ==> Contains(s, pat)
  {
    if Contains(s[i..j], pat) {
      var k :| 0 <= k <= j - i && OccursAt(s[i..j], pat, k);
      OccursInSlice(s, i, j, pat, k);
    }
  }

  /** `s.find(pat, start)`: the leftmost occurrence of `pat` at or after `start`. */
  function Find(s: string, pat: string, start: nat): (r: Option<nat>)
    requires |pat| > 0
    ensures r.Some? ==> start <= r.value && OccursAt(s, pat, r.value)
    ensures r.Some? ==> forall k: nat :: start <= k < r.value ==> !OccursAt(s, pat, k)
    ensures r.None? ==> forall k: nat :: start <= k ==> !OccursAt(s, pat, k)
    decreases |s| - start
  {
    if start + |pat| > |s| then None
    else if OccursAt(s, pat, start) then Some(start)
    else Find(s, pat, start + 1)
  }

  /** Index of the first character of `s` at or after `start` that is in `cs`,
      or `|s|` when there is none (the end of a `[^...]*` run). */
  function IndexOfAny(s: string, cs: set<char>, start: nat): (r: nat)
    requires start <= |s|
    ensures start <= r <= |s|
    ensures r < |s| ==> s[r] in cs
    ensures forall k :: start <= k < r ==> s[k] !in cs
    decreases |s| - start
  {
    if start == |s| then |s|
    else if s[start] in cs then start
    else IndexOfAny(s, cs, start + 1)
  }

  /** A character of `cs` at `j` bounds the search from `start`. */
  lemma IndexOfAnyAtMost(s: string, cs: set<char>, start: nat, j: nat)
    requires start <= j < |s| && s[j] in cs
    ensures IndexOfAny(s, cs, start) <= j
  {
  }

  /** `s.split(sep)` for a non-empty separator: cut at every leftmost,
      non-overlapping occurrence of `sep`. */
  function Split(s: string, sep: string): (r: seq<string>)
    requires |sep| > 0
    ensures |r| >= 1
    decreases |s|
  {
    match Find(s, sep, 0)
    case None => [s]
    case Some(i) => [s[..i]] + Split(s[i + |sep|..], sep)
  }

  /** `sep.join(pieces)`. */
  function Join(pieces: seq<string>, sep: string): string {
    if |pieces| == 0 then ""
    else if |pieces| == 1 then pieces[0]
    else pieces[0] + sep + Join(pieces[1..], sep)
  }

  /** Joining the pieces of a split with the same separator gives back the text. */
  lemma {:induction false} JoinSplit(s: string, sep: string)
    requires |sep| > 0
    ensures Join(Split(s, sep), sep) == s
    decreases |s|
  {
    match Find(s, sep, 0)
    case None =>
    case Some(i) =>
      var rest := s[i + |sep|..];
      JoinSplit(rest, sep);
      JoinCons(s[..i], Split(rest, sep), sep);
      ThreeSlices(s, i, i + |sep|);
  }

  /** `s.replace(pat, repl)` for a non-empty `pat`: every leftmost,
      non-overlapping occurrence of `pat` becomes `repl`, which is
      `repl.join(s.split(pat))`. */
  function Replace(s: string, pat: string, repl: string): (r: string)
    requires |pat| > 0
    ensures !Contains(s, pat) ==> r == s
    ensures repl == pat ==> r == s
  {
    ReplaceNoop(s, pat, repl);
    Join(Split(s, pat), repl)
  }

  /** Replacing an absent pattern, or a pattern by itself, changes nothing. */
  lemma ReplaceNoop(s: string, pat: string, repl: string)
    requires |pat| > 0
    ensures !Contains(s, pat) || repl == pat ==> Join(Split(s, pat), repl) == s
  {
    if repl == pat {
      JoinSplit(s, pat);
    } else if !Contains(s, pat) {
      assert Find(s, pat, 0).None?;
    }
  }

  /** A text in which `pat` starts nowhere: `pat`'s first character is not in it. */
  lemma NoStart(y: string, pat: string)
    requires |pat| > 0
    requires forall k :: 0 <= k < |y| ==> y[k] != pat[0]
    ensures Find(y, pat, 0).None? && Split(y, pat) == [y]
  {
    forall k: nat
      ensures !OccursAt(y, pat, k)
    {
      if k + |pat| <= |y| {
        assert y[k..k + |pat|][0] == y[k];
      }
    }
  }

  /** Where the first character of `pat` occurs only at one place, and `pat`
      itself starts there, `replace` swaps that one occurrence. */
  lemma ReplaceUnique(x: string, pat: string, y: string, repl: string)
    requires |pat| > 0
    requires forall k :: 0 <= k < |x| ==> x[k] != pat[0]
    requires forall k :: 0 <= k < |y| ==> y[k] != pat[0]
    ensures Replace(x + pat + y, pat, repl) == x + repl + y
  {
    var s := x + pat + y;
    assert s[|x|..|x| + |pat|] == pat;
    assert OccursAt(s, pat, |x|);
    forall k: nat | k < |x|
      ensures !OccursAt(s, pat, k)
    {
      assert s[k..k + |pat|][0] == s[k] == x[k];
    }
    var f := Find(s, pat, 0);
    assert f.Some?;
    assert f.value <= |x|;
    assert OccursAt(s, pat, f.value);
    assert f.value == |x|;
    assert s[..|x|] == x && s[|x| + |pat|..] == y;
    NoStart(y, pat);
    assert Split(s, pat) == [x] + Split(y, pat) == [x, y];
    assert [x, y][1..] == [y];
    assert Join([x, y], repl) == x + repl + y;
    assert Replace(s, pat, repl) == Join([x, y], repl);
  }

  /** Joining a piece in front of at least one more piece puts the
      separator between them. */
  lemma JoinCons(p: string, tail: seq<string>, sep: string)
    requires |tail| >= 1
    ensures Join([p] + tail, sep) == p + sep + Join(tail, sep)
  {
    assert ([p] + tail)[1..] == tail;
  }

  /** A text is its three consecutive slices put together. */
  lemma ThreeSlices(s: string, i: nat, j: nat)
    requires i <= j <= |s|
    ensures s[..i] + s[i..j] + s[j..] == s
  {
  }

  /** No piece of a split contains the separator. */
  lemma {:induction false} SplitPiecesFree(s: string, sep: string)
    requires |sep| > 0
    ensures forall p :: p in Split(s, sep) ==> !Contains(p, sep)
    decreases |s|
  {
    match Find(s, sep, 0)
    case None =>
    case Some(i) =>
      var rest := s[i + |sep|..];
      SplitPiecesFree(rest, sep);
      forall k | 0 <= k <= i && OccursAt(s[..i], sep, k)
        ensures false
      {
        assert s[..i][k..k + |sep|] == s[k..k + |sep|];
        assert OccursAt(s, sep, k);
      }
  }

  /** `s.split(c, 1)`: the text before the first `c` and, when there is one,
      the text after it. */
  function SplitOnce(s: string, c: char): (r: (string, Option<string>))
    ensures c !in r.0
    ensures r.1.None? ==> r.0 == s
    ensures r.1.Some? ==> s == r.0 + [c] + r.1.value
  {
    var i := IndexOfAny(s, {c}, 0);
    if i == |s| then (s, None)
    else
      assert s == s[..i] + [c] + s[i + 1..];
      (s[..i], Some(s[i + 1..]))
  }

  /** `s.lstrip(cs)`: drop the longest prefix made of characters of `cs`. */
  function StripLeft(s: string, cs: set<char>): (r: string)
    ensures |r| <= |s| && r == s[|s| - |r|..]
    ensures forall k :: 0 <= k < |s| - |r| ==> s[k] in cs
    ensures |r| > 0 ==> r[0] !in cs
    decreases |s|
  {
    if |s| > 0 && s[0] in cs then StripLeft(s[1..], cs) else s
  }

  /** `s.rstrip(cs)`: drop the longest suffix made of characters of `cs`. */
  function StripRight(s: string, cs: set<char>): (r: string)
    ensures |r| <= |s| && r == s[..|r|]
    ensures forall k :: |r| <= k < |s| ==> s[k] in cs
    ensures |r| > 0 ==> r[|r| - 1] !in cs
    decreases |s|
  {
    if |s| > 0 && s[|s| - 1] in cs then StripRight(s[..|s| - 1], cs) else s
  }

  /** A prefix of a suffix is a slice. */
  lemma PrefixOfSuffix(s: string, i: nat, n: nat)
    requires i + n <= |s|
    ensures s[i..][..n] == s[i..i + n]
  {
    assert forall k :: 0 <= k < n ==> s[i..][..n][k] == s[i + k];
  }

  /** `s.strip(cs)`: drop the longest prefix and the longest suffix made of
      characters of `cs`. */
  function Strip(s: string, cs: set<char>): (r: string)
    ensures |r| <= |s|
    ensures |r| > 0 ==> r[0] !in cs && r[|r| - 1] !in cs
  {
    StripRight(StripLeft(s, cs), cs)
  }

  /** Where the stripped text lies in `s`: it is the slice `s[i..j]`, and
      every character cut off before `i` or from `j` on is in `cs`. */
  lemma StripBounds(s: string, cs: set<char>) returns (i: nat, j: nat)
    ensures i <= j <= |s| && Strip(s, cs) == s[i..j]
    ensures forall k :: 0 <= k < i ==> s[k] in cs
    ensures forall k :: j <= k < |s| ==> s[k] in cs
  {
    var left := StripLeft(s, cs);
    var r := StripRight(left, cs);
    i := |s| - |left|;
    j := i + |r|;
    PrefixOfSuffix(s, i, |r|);
    assert r == left[..|r|] && left == s[i..];
    forall k | j <= k < |s|
      ensures s[k] in cs
    {
      assert s[k] == left[k - i];
      assert |r| <= k - i < |left|;
    }
  }

  /** A string that neither starts nor ends with a character of `cs` is left
      as it is by `strip`. */
  lemma StripNoop(s: string, cs: set<char>)
    requires |s| > 0 ==> s[0] !in cs && s[|s| - 1] !in cs
    ensures Strip(s, cs) == s
  {
  }

  /** The characters for which Python's `str.isspace()` holds: the set that
      `str.strip()` with no argument removes. */
  const Whitespace: set<char> :=
    {'\t', '\n', '\U{000B}', '\U{000C}', '\r', '\U{001C}', '\U{001D}', '\U{001E}', '\U{001F}',
     ' ', '\U{0085}', '\U{00A0}', '\U{1680}',
     '\U{2000}', '\U{2001}', '\U{2002}', '\U{2003}', '\U{2004}', '\U{2005}', '\U{2006}',
     '\U{2007}', '\U{2008}', '\U{2009}', '\U{200A}',
     '\U{2028}', '\U{2029}', '\U{202F}', '\U{205F}', '\U{3000}'}

  /** `s.strip()` with no argument. */
  function StripSpace(s: string): (r: string)
    ensures |r| > 0 ==> r[0] !in Whitespace && r[|r| - 1] !in Whitespace
  {
    Strip(s, Whitespace)
  }
}

=== FILE: resub.dfy ===
/** `re.sub(pattern, '', text)` for a pattern that never matches the empty
    string and looks neither behind nor past the end of the text: the text is
    scanned left to right; where the pattern matches at the current position
    the match is cut out and the scan resumes after it, otherwise one
    character is kept. The pattern itself is a hand-written matcher, a
    function giving the length of its preferred match at the start of a
    string (0 when there is none). */
module ReSub {

  /** One step of the scan: a kept character or a removed match. */
  datatype Piece = Kept(c: char) | Removed(text: string)

  /** A matcher's answer for `x` is a match when it is a non-empty prefix of `x`. */
  predicate IsMatch(x: string, n: nat) {
    0 < n <= |x|
  }

  /** The scan of `s` with matcher `m`, as the sequence of its steps. Every
      step consumes at least one character, so there are at most `|s|` steps,
      and only the empty text has none. */
  function Scan(s: string, m: string -> nat): (r: seq<Piece>)
    ensures |r| <= |s| && (|r| == 0 <==> |s| == 0)
    ensures forall p :: p in r && p.Removed? ==> |p.text| > 0
    decreases |s|
  {
    if |s| == 0 then []
    else if IsMatch(s, m(s)) then [Removed(s[..m(s)])] + Scan(s[m(s)..], m)
    else [Kept(s[0])] + Scan(s[1..], m)
  }

  /** The text a sequence of steps covers. */
  function Flatten(ps: seq<Piece>): string {
    if |ps| == 0 then ""
    else (match ps[0] case Kept(c) => [c] case Removed(t) => t) + Flatten(ps[1..])
  }

  /** The text a sequence of steps keeps. */
  function KeptText(ps: seq<Piece>): string {
    if |ps| == 0 then ""
    else (match ps[0] case Kept(c) => [c] case Removed(_) => "") + KeptText(ps[1..])
  }

  /** `re.sub(pattern, '', s)`. */
  function Sub(s: string, m: string -> nat): (r: string)
    ensures |r| <= |s|
  {
    ScanCovers(s, m);
    KeptLength(Scan(s, m));
    KeptText(Scan(s, m))
  }

  lemma {:induction false} KeptLength(ps: seq<Piece>)
    ensures |KeptText(ps)| <= |Flatten(ps)|
  {
    if |ps| > 0 {
      KeptLength(ps[1..]);
    }
  }

  /** The scan loses nothing: its steps, put back together, are the text. */
  lemma {:induction false} ScanCovers(s: string, m: string -> nat)
    ensures Flatten(Scan(s, m)) == s
    decreases |s|
  {
    if |s| > 0 {
      var ps := Scan(s, m);
      var n := if IsMatch(s, m(s)) then m(s) else 1;
      assert ps[1..] == Scan(s[n..], m);
      calc {
        Flatten(ps);
        s[..n] + Flatten(ps[1..]);
        { ScanCovers(s[n..], m); }
        s[..n] + s[n..];
        s;
      }
    }
  }

  /** Every step is the one the regex engine takes at that position: a removed
      piece is exactly the matcher's match on the text from there on, and a
      kept character stands where the matcher finds no match. */
  ghost predicate Faithful(ps: seq<Piece>, m: string -> nat) {
    forall i :: 0 <= i < |ps| ==>
      var here := Flatten(ps[i..]);
      match ps[i]
      case Kept(c) => !IsMatch(here, m(here))
      case Removed(t) => IsMatch(here, m(here)) && t == here[..m(here)]
  }

  lemma {:induction false} ScanFaithful(s: string, m: string -> nat)
    ensures Faithful(Scan(s, m), m)
    decreases |s|
  {
    var ps := Scan(s, m);
    if |s| > 0 {
      var tail := if IsMatch(s, m(s)) then s[m(s)..] else s[1..];
      ScanFaithful(tail, m);
      ScanCovers(s, m);
      assert ps[1..] == Scan(tail, m);
      forall i | 0 <= i < |ps|
        ensures var here := Flatten(ps[i..]);
                match ps[i]
                case Kept(c) => !IsMatch(here, m(here))
                case Removed(t) => IsMatch(here, m(here)) && t == here[..m(here)]
      {
        if i == 0 {
          assert ps[0..] == ps;
        } else {
          assert ps[i..] == ps[1..][i - 1..];
        }
      }
    }
  }

  /** Where the matcher matches at no position of `s`, `re.sub` leaves `s` as it is. */
  lemma {:induction false} SubNoMatch(s: string, m: string -> nat)
    requires forall k :: 0 <= k < |s| ==> !IsMatch(s[k..], m(s[k..]))
    ensures Sub(s, m) == s
    decreases |s|
  {
    if |s| > 0 {
      assert s[0..] == s;
      forall k | 0 <= k < |s| - 1
        ensures !IsMatch(s[1..][k..], m(s[1..][k..]))
      {
        assert s[1..][k..] == s[k + 1..];
      }
      SubNoMatch(s[1..], m);
      assert s == [s[0]] + s[1..];
    }
  }
}

=== FILE: sanitize.dfy ===
/** File-name sanitising of the document-splitting script (main.py, lines 7-10):
    every character outside the Latin letters, the basic Cyrillic letters and
    the ASCII digits becomes `_`, every run of `_` becomes a single `_`, and
    `_` is stripped from both ends. */
module Sanitize {
  import opened PyStr

  /** The character class kept by the first substitution: `a-z`, `A-Z`,
      Cyrillic `а-я` (U+0430..U+044F), Cyrillic `А-Я` (U+0410..U+042F) and
      `0-9`. `ё`, `Ё` and every non-ASCII digit lie outside these ranges. */
  predicate IsAllowed(c: char) {
    ('a' <= c <= 'z') || ('A' <= c <= 'Z') ||
    ('\U{0430}' <= c <= '\U{044F}') || ('\U{0410}' <= c <= '\U{042F}') ||
    ('0' <= c <= '9')
  }

  /** Every character of `s` is in the allowed class or is `_`. */
  predicate InNameAlphabet(s: string) {
    forall i :: 0 <= i < |s| ==> IsAllowed(s[i]) || s[i] == '_'
  }

  /** No two adjacent characters of `s` are both `_`. */
  predicate NoDoubleUnderscore(s: string) {
    forall i :: 0 <= i < |s| - 1 ==> s[i] != '_' || s[i + 1] != '_'
  }

  /** The characters of `s` other than `_`, in order. */
  function Letters(s: string): string {
    if |s| == 0 then "" else (if s[0] == '_' then "" else [s[0]]) + Letters(s[1..])
  }

  /** The characters of `s` in the allowed class, in order. */
  function AllowedChars(s: string): string {
    if |s| == 0 then "" else (if IsAllowed(s[0]) then [s[0]] else "") + AllowedChars(s[1..])
  }

  /** First substitution: each character outside the class becomes `_`. */
  function ReplaceDisallowed(s: string): (r: string)
    ensures |r| == |s|
    ensures forall i :: 0 <= i < |s| ==> r[i] == (if IsAllowed(s[i]) then s[i] else '_')
    ensures InNameAlphabet(r)
    ensures Letters(r) == AllowedChars(s)
    decreases |s|
  {
    if |s| == 0 then ""
    else [if IsAllowed(s[0]) then s[0] else '_'] + ReplaceDisallowed(s[1..])
  }

  /** A string already in the name alphabet passes the first substitution
      unchanged (`_` itself is outside the class and is replaced by `_`). */
  lemma ReplaceKeepsAlphabet(s: string)
    requires InNameAlphabet(s)
    ensures ReplaceDisallowed(s) == s
  {
    var r := ReplaceDisallowed(s);
    assert forall i :: 0 <= i < |s| ==> r[i] == s[i];
  }

  /** Second substitution: each run of `_` becomes one `_`. */
  function CollapseUnderscores(s: string): (r: string)
    ensures |r| <= |s|
    ensures |s| > 0 ==> |r| > 0 && r[0] == s[0] && r[|r| - 1] == s[|s| - 1]
    ensures NoDoubleUnderscore(r)
    decreases |s|
  {
    if |s| < 2 then s
    else if s[0] == '_' && s[1] == '_' then CollapseUnderscores(s[1..])
    else [s[0]] + CollapseUnderscores(s[1..])
  }

  /** Dropping the first character keeps a string in the name alphabet and
      free of doubled `_`. */
  lemma TailKeepsShape(s: string)
    requires |s| > 0
    ensures InNameAlphabet(s) ==> InNameAlphabet(s[1..])
    ensures NoDoubleUnderscore(s) ==> NoDoubleUnderscore(s[1..])
  {
    assert forall i :: 0 <= i < |s| - 1 ==> s[1..][i] == s[i + 1];
  }

  /** Collapsing keeps the characters other than `_`, in order. */
  lemma {:induction false} CollapseKeepsLetters(s: string)
    ensures Letters(CollapseUnderscores(s)) == Letters(s)
    decreases |s|
  {
    if |s| >= 2 {
      CollapseKeepsLetters(s[1..]);
      if s[0] != '_' || s[1] != '_' {
        var r := [s[0]] + CollapseUnderscores(s[1..]);
        assert r[1..] == CollapseUnderscores(s[1..]);
      }
    }
  }

  /** Collapsing introduces no character outside the name alphabet. */
  lemma {:induction false} CollapseKeepsAlphabet(s: string)
    requires InNameAlphabet(s)
    ensures InNameAlphabet(CollapseUnderscores(s))
    decreases |s|
  {
    if |s| >= 2 {
      TailKeepsShape(s);
      CollapseKeepsAlphabet(s[1..]);
    }
  }

  /** A string without doubled `_` passes the second substitution unchanged. */
  lemma {:induction false} CollapseNoop(s: string)
    requires NoDoubleUnderscore(s)
    ensures CollapseUnderscores(s) == s
    decreases |s|
  {
    if |s| >= 2 {
      TailKeepsShape(s);
      CollapseNoop(s[1..]);
    }
  }

  /** `_` is the only character the final `strip` removes. */
  const Underscore: set<char> := {'_'}

  /** `sanitize_filename`. */
  function SanitizeFilename(s: string): (r: string)
    ensures InNameAlphabet(r)
    ensures NoDoubleUnderscore(r)
    ensures |r| > 0 ==> r[0] != '_' && r[|r| - 1] != '_'
    ensures Letters(r) == AllowedChars(s)
  {
    SanitizeSteps(s);
    Strip(CollapseUnderscores(ReplaceDisallowed(s)), Underscore)
  }

  /** What each of the three steps contributes to the sanitised name. */
  lemma SanitizeSteps(s: string)
    ensures var r := Strip(CollapseUnderscores(ReplaceDisallowed(s)), Underscore);
            InNameAlphabet(r) && NoDoubleUnderscore(r) && Letters(r) == AllowedChars(s)
  {
    var u := ReplaceDisallowed(s);
    var t := CollapseUnderscores(u);
    CollapseKeepsLetters(u);
    CollapseKeepsAlphabet(u);
    StripKeepsLetters(t);
    StripKeepsShape(t);
  }

  lemma {:induction false} LettersAppend(a: string, b: string)
    ensures Letters(a + b) == Letters(a) + Letters(b)
    decreases |a|
  {
    if |a| > 0 {
      LettersAppend(a[1..], b);
      var head := if a[0] == '_' then "" else [a[0]];
      calc {
        Letters(a + b);
        { assert (a + b)[0] == a[0]; assert (a + b)[1..] == a[1..] + b; }
        head + Letters(a[1..] + b);
        head + (Letters(a[1..]) + Letters(b));
        (head + Letters(a[1..])) + Letters(b);
      }
    } else {
      assert a + b == b;
    }
  }

  lemma {:induction false} StripLeftKeepsLetters(t: string)
    ensures Letters(StripLeft(t, Underscore)) == Letters(t)
    decreases |t|
  {
    if |t| > 0 && t[0] in Underscore {
      StripLeftKeepsLetters(t[1..]);
    }
  }

  lemma {:induction false} StripRightKeepsLetters(t: string)
    ensures Letters(StripRight(t, Underscore)) == Letters(t)
    decreases |t|
  {
    if |t| > 0 && t[|t| - 1] in Underscore {
      var init := t[..|t| - 1];
      StripRightKeepsLetters(init);
      assert t == init + [t[|t| - 1]];
      LettersAppend(init, [t[|t| - 1]]);
    }
  }

  lemma NoDoubleSlice(t: string, i: nat, j: nat)
    requires i <= j <= |t| && NoDoubleUnderscore(t)
    ensures NoDoubleUnderscore(t[i..j])
  {
    assert forall k :: 0 <= k < j - i ==> t[i..j][k] == t[i + k];
  }

  /** Stripping `_` keeps the other characters of a string, in order. */
  lemma StripKeepsLetters(t: string)
    ensures Letters(Strip(t, Underscore)) == Letters(t)
  {
    var left := StripLeft(t, Underscore);
    assert StripRight(left, Underscore) == Strip(t, Underscore);
    StripLeftKeepsLetters(t);
    StripRightKeepsLetters(left);
  }

  /** Stripping `_` keeps a string free of doubled `_` and within the name
      alphabet, since what it returns is a slice of the string. */
  lemma StripKeepsShape(t: string)
    ensures NoDoubleUnderscore(t) ==> NoDoubleUnderscore(Strip(t, Underscore))
    ensures InNameAlphabet(t) ==> InNameAlphabet(Strip(t, Underscore))
  {
    var i, j := StripBounds(t, Underscore);
    if NoDoubleUnderscore(t) {
      NoDoubleSlice(t, i, j);
    }
    if InNameAlphabet(t) {
      AlphabetSlice(t, i, j);
    }
  }

  lemma AlphabetSlice(t: string, i: nat, j: nat)
    requires i <= j <= |t| && InNameAlphabet(t)
    ensures InNameAlphabet(t[i..j])
  {
    assert forall k :: 0 <= k < j - i ==> t[i..j][k] == t[i + k];
  }

  /** Sanitising a sanitised name changes nothing. */
  lemma SanitizeIdempotent(s: string)
    ensures SanitizeFilename(SanitizeFilename(s)) == SanitizeFilename(s)
  {
    var t := SanitizeFilename(s);
    ReplaceKeepsAlphabet(t);
    CollapseNoop(t);
    StripNoop(t, Underscore);
  }
}

=== FILE: sections.dfy ===
/** Section splitting of the document-splitting script (main.py, lines
    31-53): the document is cut at every `"\n== "`; the piece before the first
    cut is the introduction and produces no file; every later piece gives a
    section whose title is its first line, stripped, and whose content is the
    rest of the piece, stripped and cleaned; the section's Typst file and the
    image name it requests from the renderer share the stem
    `"{i:02d}_" + sanitize_filename(title)`, and the renderer writes page `n`
    of that image as the stem + `-n.png`. */
module Sections {
  import opened PyStr
  import opened ReSub
  import opened Sanitize

  /** The separator the document is split on: a level-2 heading at the start
      of a line. */
  const SectionSeparator: string := "\n== "

  // ---------------------------------------------------------------------
  // Decimal numbers: `str(n)` and `f"{n:02d}"`
  // ---------------------------------------------------------------------

  predicate IsDigit(c: char) {
    '0' <= c <= '9'
  }

  predicate AllDigits(s: string) {
    forall i :: 0 <= i < |s| ==> IsDigit(s[i])
  }

  function DigitChar(d: nat): (c: char)
    requires d < 10
    ensures IsDigit(c) && c as int - '0' as int == d
  {
    ('0' as int + d) as char
  }

  /** The number a string of decimal digits denotes (leading zeros allowed). */
  function DigitsValue(s: string): nat
    requires AllDigits(s)
  {
    if |s| == 0 then 0
    else DigitsValue(s[..|s| - 1]) * 10 + (s[|s| - 1] as int - '0' as int)
  }

  /** `str(n)` for a non-negative integer: its shortest decimal form. */
  function Decimal(n: nat): (r: string)
    ensures 1 <= |r| && AllDigits(r)
    ensures n < 10 <==> |r| == 1
    ensures |r| == 1 || r[0] != '0'
    decreases n
  {
    if n < 10 then [DigitChar(n)] else Decimal(n / 10) + [DigitChar(n % 10)]
  }

  /** Reading back the decimal form of `n` gives `n`. */
  lemma {:induction false} DecimalRoundTrip(n: nat)
    ensures DigitsValue(Decimal(n)) == n
    decreases n
  {
    if n >= 10 {
      DecimalRoundTrip(n / 10);
      var r := Decimal(n);
      assert r[..|r| - 1] == Decimal(n / 10);
    }
  }

  /** `f"{n:02d}"`: the decimal form of `n`, padded with zeros on the left to
      at least two characters. */
  function Pad2(n: nat): (r: string)
    ensures 2 <= |r| && AllDigits(r)
    ensures DigitsValue(r) == n
    ensures n >= 10 ==> r == Decimal(n)
    ensures |r| == 2 || r[0] != '0'
  {
    DecimalRoundTrip(n);
    if n < 10 then
      var r := "0" + Decimal(n);
      assert r[..|r| - 1] == "0";
      assert DigitsValue("0") == 0 by { assert "0"[..0] == ""; }
      r
    else Decimal(n)
  }

  // ---------------------------------------------------------------------
  // File names
  // ---------------------------------------------------------------------

  /** The stem shared by a section's Typst file and its requested image name. It is a safe
      name (allowed characters and `_` only, no doubled `_`) whose leading
      digits, up to the first `_`, read back as the section's number. */
  function FileStem(i: nat, title: string): (r: string)
    ensures InNameAlphabet(r) && NoDoubleUnderscore(r)
    ensures var n := |Pad2(i)|;
            n < |r| && AllDigits(r[..n]) && DigitsValue(r[..n]) == i && r[n] == '_'
    ensures r[..|Pad2(i)|] == Pad2(i) && r[|Pad2(i)| + 1..] == SanitizeFilename(title)
  {
    var p, u := Pad2(i), SanitizeFilename(title);
    StemShape(p, u);
    p + "_" + u
  }

  /** Digits, one `_` and a sanitised name make a safe name. */
  lemma StemShape(p: string, u: string)
    requires |p| > 0 && AllDigits(p)
    requires InNameAlphabet(u) && NoDoubleUnderscore(u) && (|u| > 0 ==> u[0] != '_')
    ensures var r := p + "_" + u;
            InNameAlphabet(r) && NoDoubleUnderscore(r) && r[..|p|] == p && r[|p|] == '_' &&
            r[|p| + 1..] == u
  {
    var r := p + "_" + u;
    forall k | 0 <= k < |r|
      ensures IsAllowed(r[k]) || r[k] == '_'
    {
      if k < |p| {
        assert r[k] == p[k] && IsDigit(p[k]);
      } else if k > |p| {
        assert r[k] == u[k - |p| - 1];
      }
    }
    forall k | 0 <= k < |r| - 1
      ensures r[k] != '_' || r[k + 1] != '_'
    {
      if k < |p| {
        assert r[k] == p[k] && IsDigit(p[k]);
      } else if k == |p| {
        assert r[k + 1] == u[0];
      } else {
        assert r[k] == u[k - |p| - 1] && r[k + 1] == u[k - |p|];
      }
    }
    assert r[..|p|] == p && r[|p| + 1..] == u;
  }

  /** Sections with different indices get different stems, whatever their
      titles: the zero-padded index ends at the first `_`. */
  lemma StemsDistinct(i: nat, j: nat, t1: string, t2: string)
    requires i != j
    ensures FileStem(i, t1) != FileStem(j, t2)
  {
    DigitPrefixesDistinct(Pad2(i), Pad2(j), SanitizeFilename(t1), SanitizeFilename(t2));
  }

  /** Two different digit strings, each followed by `_`, start two different
      strings: the first `_` marks where the digits end. */
  lemma DigitPrefixesDistinct(a: string, b: string, u: string, v: string)
    requires AllDigits(a) && AllDigits(b) && a != b
    ensures a + "_" + u != b + "_" + v
  {
    var x, y := a + "_" + u, b + "_" + v;
    if |a| == |b| {
      assert x[..|a|] == a && y[..|b|] == b;
    } else if |a| < |b| {
      assert x[|a|] == '_' && y[|a|] == b[|a|] && IsDigit(b[|a|]);
    } else {
      assert y[|b|] == '_' && x[|b|] == a[|b|] && IsDigit(a[|b|]);
    }
  }

  /** Distinct stems keep distinct names under a common extension. */
  lemma ExtensionKeepsDistinct(a: string, b: string, ext: string)
    requires a != b
    ensures a + ext != b + ext
  {
    if |a| == |b| {
      assert (a + ext)[..|a|] == a && (b + ext)[..|b|] == b;
    } else {
      assert |a + ext| != |b + ext|;
    }
  }

  // ---------------------------------------------------------------------
  // Content clean-up (main.py, lines 43-44)
  // ---------------------------------------------------------------------

  /** Length of the match, at the start of `x`, of the pattern that removes a
      trailing heading line: a newline, one or more `=`, the rest of that
      line, and then the end of the text or a newline that ends the text (the
      pattern is compiled without MULTILINE). 0 when there is no match. */
  function HeadingMatch(x: string): (n: nat)
    ensures n <= |x|
    ensures n > 0 ==>
      2 <= n && x[0] == '\n' && x[1] == '=' &&
      (forall k :: 1 <= k < n ==> x[k] != '\n') &&
      (n == |x| || (n == |x| - 1 && x[n] == '\n'))
    ensures (2 <= |x| && x[0] == '\n' && x[1] == '=' &&
             (forall k :: 1 <= k < |x| - 1 ==> x[k] != '\n')) ==> n > 0
  {
    if 2 <= |x| && x[0] == '\n' && x[1] == '=' then
      var e := IndexOfAny(x, {'\n'}, 1);
      if e == |x| || e == |x| - 1 then e else 0
    else 0
  }

  /** The text that opens a cross-reference link. */
  const LinkOpen: string := "#link(label("

  /** `x` holds, from its start, a cross-reference link whose label ends at
      `k` (the label is non-empty and has no `)`), followed by `))[`, a link
      text without `]` or newline, and the `]` at `e`. */
  predicate LinkAt(x: string, k: nat, e: nat) {
    StartsWith(x, LinkOpen) && |LinkOpen| < k && k + 3 <= e < |x| &&
    (forall j :: |LinkOpen| <= j < k ==> x[j] != ')') &&
    OccursAt(x, "))[", k) &&
    (forall j :: k + 3 <= j < e ==> x[j] != ']' && x[j] != '\n') &&
    x[e] == ']'
  }

  /** Where the label of a link at the start of `x` must end: the first `)`
      after the opener. */
  function LabelEnd(x: string): nat
    requires StartsWith(x, LinkOpen)
  {
    IndexOfAny(x, {')'}, |LinkOpen|)
  }

  /** A link at the start of `x` is determined by `x`: its label ends at the
      first `)` and its text at the first `]` after the label. */
  lemma LinkAtDetermined(x: string)
    ensures forall k: nat, e: nat :: LinkAt(x, k, e) ==>
              k == LabelEnd(x) && e == IndexOfAny(x, {']', '\n'}, k + 3)
  {
    forall k: nat, e: nat | LinkAt(x, k, e)
      ensures k == LabelEnd(x) && e == IndexOfAny(x, {']', '\n'}, k + 3)
    {
      assert x[k] == x[k..k + 3][0] == ')';
      IndexOfAnyAtMost(x, {')'}, |LinkOpen|, k);
      IndexOfAnyAtMost(x, {']', '\n'}, k + 3, e);
    }
  }

  /** Length of the match, at the start of `x`, of the pattern that removes a
      cross-reference link: the link text is matched lazily, so the match ends
      at the first `]`. 0 when there is no match. */
  function LinkMatch(x: string): (n: nat)
    ensures n <= |x|
    ensures n > 0 ==> StartsWith(x, LinkOpen) && LinkAt(x, LabelEnd(x), n - 1)
    ensures forall k: nat, e: nat :: LinkAt(x, k, e) ==> n == e + 1
  {
    LinkAtDetermined(x);
    if !StartsWith(x, LinkOpen) then 0
    else
      var k := LabelEnd(x);
      if k == |LinkOpen| || !OccursAt(x, "))[", k) then 0
      else
        var m := IndexOfAny(x, {']', '\n'}, k + 3);
        if m < |x| && x[m] == ']' then
          assert LinkAt(x, k, m);
          m + 1
        else 0
  }

  /** The content written for a section: stripped, then without a trailing
      heading line, then without cross-reference links. */
  function CleanContent(raw: string): (r: string)
    ensures |r| <= |raw|
  {
    Sub(Sub(StripSpace(raw), HeadingMatch), LinkMatch)
  }

  /** Text in which no newline is followed by `=` has no trailing heading
      line to remove. */
  lemma NoHeadingUnchanged(s: string)
    requires forall k :: 0 <= k < |s| - 1 ==> s[k] != '\n' || s[k + 1] != '='
    ensures Sub(s, HeadingMatch) == s
  {
    forall k | 0 <= k < |s|
      ensures !IsMatch(s[k..], HeadingMatch(s[k..]))
    {
      assert s[k..][0] == s[k];
      assert k + 1 < |s| ==> s[k..][1] == s[k + 1];
    }
    SubNoMatch(s, HeadingMatch);
  }

  /** Text without the link opener has no link to remove. */
  lemma NoLinkUnchanged(s: string)
    requires !Contains(s, LinkOpen)
    ensures Sub(s, LinkMatch) == s
  {
    forall k | 0 <= k < |s|
      ensures !IsMatch(s[k..], LinkMatch(s[k..]))
    {
      if LinkMatch(s[k..]) > 0 {
        var x := s[k..];
        assert x[..|LinkOpen|] == s[k..k + |LinkOpen|];
        assert OccursAt(s, LinkOpen, k);
      }
    }
    SubNoMatch(s, LinkMatch);
  }

  /** Content with no newline followed by `=` and no link opener is only
      stripped. */
  lemma CleanContentPlain(raw: string)
    requires forall k :: 0 <= k < |raw| - 1 ==> raw[k] != '\n' || raw[k + 1] != '='
    requires !Contains(raw, LinkOpen)
    ensures CleanContent(raw) == StripSpace(raw)
  {
    var s := StripSpace(raw);
    var i, j := StripBounds(raw, Whitespace);
    forall k | 0 <= k < |s| - 1
      ensures s[k] != '\n' || s[k + 1] != '='
    {
      assert s[k] == raw[i + k] && s[k + 1] == raw[i + k + 1];
    }
    NoHeadingUnchanged(s);
    ContainsInSlice(raw, i, j, LinkOpen);
    NoLinkUnchanged(s);
  }

  // ---------------------------------------------------------------------
  // Sections
  // ---------------------------------------------------------------------

  /** What the script produces for one section: its number, its title, its
      cleaned content, the name of the Typst file, the requested image name, and the
      text written to the Typst file (the preamble, the heading, the content). */
  datatype SectionFile = SectionFile(
    index: nat,
    title: string,
    content: string,
    typstName: string,
    pngName: string,
    typstText: string)

  /** The Typst file and the requested image name of `f` are named by its stem. */
  predicate NamedByStem(f: SectionFile) {
    f.typstName == FileStem(f.index, f.title) + ".typst" &&
    f.pngName == FileStem(f.index, f.title) + ".png"
  }

  /** The section numbered `i` made from `piece`, the text after its `"\n== "`:
      the title comes from the text before the first newline of the piece and
      the content from the text after it (none when the piece has no newline). */
  function SectionOf(i: nat, piece: string, preamble: string): (r: SectionFile)
    ensures r.index == i
    ensures var (head, rest) := SplitOnce(piece, '\n');
            r.title == StripSpace(head) &&
            r.content == CleanContent(if rest.Some? then rest.value else "")
    ensures r.typstName == FileStem(i, r.title) + ".typst"
    ensures r.pngName == FileStem(i, r.title) + ".png"
    ensures r.typstText == "\n" + preamble + "\n== " + r.title + "\n" + r.content + "\n"
  {
    var (head, rest) := SplitOnce(piece, '\n');
    var title := StripSpace(head);
    var content := CleanContent(if rest.Some? then rest.value else "");
    var stem := FileStem(i, title);
    SectionFile(i, title, content, stem + ".typst", stem + ".png",
                "\n" + preamble + "\n== " + title + "\n" + content + "\n")
  }

  /** A piece without a newline is a bare title: its section has no content. */
  lemma TitleOnlySection(i: nat, piece: string, preamble: string)
    requires '\n' !in piece
    ensures SectionOf(i, piece, preamble).title == StripSpace(piece)
    ensures SectionOf(i, piece, preamble).content == ""
  {
    assert StripSpace("") == "";
  }

  /** The files the script writes for `doc` with the preamble `preamble`, in
      order: one per piece after the first. */
  function SplitSections(doc: string, preamble: string): (r: seq<SectionFile>)
    ensures |r| == |Split(doc, SectionSeparator)| - 1
  {
    var pieces := Split(doc, SectionSeparator);
    Numbered(1, pieces[1..], (j, piece) => SectionOf(j, piece, preamble))
  }

  /** `[f(i, xs[0]), f(i + 1, xs[1]), ...]`: what a loop over
      `enumerate(xs, i)` produces when each step makes `f(index, item)`. */
  function Numbered<X, Y>(i: nat, xs: seq<X>, f: (nat, X) -> Y): (r: seq<Y>)
    ensures |r| == |xs|
    ensures forall k :: 0 <= k < |r| ==> r[k] == f(i + k, xs[k])
    decreases |xs|
  {
    if |xs| == 0 then []
    else
      var tail := Numbered(i + 1, xs[1..], f);
      assert forall k :: 1 <= k <= |tail| ==> xs[1..][k - 1] == xs[k];
      [f(i, xs[0])] + tail
  }

  /** Section `k` of the document (counting from 0) is the section numbered
      `k + 1`, made from the piece after the `k + 1`-th separator. */
  lemma SplitSectionsAt(doc: string, preamble: string, k: nat)
    requires k < |SplitSections(doc, preamble)|
    ensures SplitSections(doc, preamble)[k] ==
            SectionOf(k + 1, Split(doc, SectionSeparator)[k + 1], preamble)
    ensures SplitSections(doc, preamble)[k].index == k + 1
    ensures NamedByStem(SplitSections(doc, preamble)[k])
  {
    var pieces := Split(doc, SectionSeparator);
    var r := SplitSections(doc, preamble);
    assert r[k] == SectionOf(k + 1, pieces[1..][k], preamble);
    assert pieces[1..][k] == pieces[k + 1];
  }

  /** Sections with different numbers write to different Typst files and
      request different image names, whatever their titles. */
  lemma SectionNamesDiffer(i: nat, j: nat, t1: string, t2: string)
    requires i != j
    ensures FileStem(i, t1) + ".typst" != FileStem(j, t2) + ".typst"
    ensures FileStem(i, t1) + ".png" != FileStem(j, t2) + ".png"
  {
    StemsDistinct(i, j, t1, t2);
    var x, y := FileStem(i, t1), FileStem(j, t2);
    ExtensionKeepsDistinct(x, y, ".typst");
    ExtensionKeepsDistinct(x, y, ".png");
  }

  /** The sections are numbered 1, 2, ... in document order, and no two of
      them write to the same Typst file or request the same image name. */
  lemma SectionNamesDistinct(doc: string, preamble: string)
    ensures var r := SplitSections(doc, preamble);
            (forall k :: 0 <= k < |r| ==> r[k].index == k + 1) &&
            (forall k, l :: 0 <= k < l < |r| ==>
               r[k].typstName != r[l].typstName && r[k].pngName != r[l].pngName)
  {
    var r := SplitSections(doc, preamble);
    forall k | 0 <= k < |r|
      ensures r[k].index == k + 1 && NamedByStem(r[k])
    {
      SplitSectionsAt(doc, preamble, k);
    }
    forall k, l | 0 <= k < l < |r|
      ensures r[k].typstName != r[l].typstName && r[k].pngName != r[l].pngName
    {
      SectionNamesDiffer(r[k].index, r[l].index, r[k].title, r[l].title);
    }
  }

  // ---------------------------------------------------------------------
  // Rendered images
  // ---------------------------------------------------------------------

  /** The output path the renderer is given for section `f`: `.png` in its
      image name becomes `-{p}.png`. */
  function RenderTarget(f: SectionFile): (r: string)
    ensures NamedByStem(f) ==> r == FileStem(f.index, f.title) + "-{p}.png"
  {
    TargetOfSection(f);
    Replace(f.pngName, ".png", "-{p}.png")
  }

  /** The image the renderer writes for page `page` of section `f`: it puts
      the page number where the output path has `{p}`. */
  function PageImage(f: SectionFile, page: nat): (r: string)
    ensures NamedByStem(f) ==> r == FileStem(f.index, f.title) + "-" + Decimal(page) + ".png"
  {
    PageOfSection(f, page);
    Replace(RenderTarget(f), "{p}", Decimal(page))
  }

  lemma TargetOfSection(f: SectionFile)
    ensures NamedByStem(f) ==>
            Replace(f.pngName, ".png", "-{p}.png") == FileStem(f.index, f.title) + "-{p}.png"
  {
    if NamedByStem(f) {
      TargetOfStem(FileStem(f.index, f.title));
    }
  }

  lemma PageOfSection(f: SectionFile, page: nat)
    ensures NamedByStem(f) ==>
            Replace(RenderTarget(f), "{p}", Decimal(page)) ==
            FileStem(f.index, f.title) + "-" + Decimal(page) + ".png"
  {
    if NamedByStem(f) {
      PageOfStem(FileStem(f.index, f.title), Decimal(page));
    }
  }

  /** Under a directory without `.` and `{`, such as the script's
      `output_images`, the two replacements still touch only the name:
      page `page` of the image `dir/stem.png` is `dir/stem-page.png`. */
  lemma PagesInDirectory(dir: string, stem: string, page: string)
    requires InNameAlphabet(stem)
    requires forall k :: 0 <= k < |dir| ==> dir[k] != '.' && dir[k] != '{'
    ensures var path := dir + "/" + stem;
            Replace(path + ".png", ".png", "-{p}.png") == path + "-{p}.png" &&
            Replace(path + "-{p}.png", "{p}", page) == path + "-" + page + ".png"
  {
    var path := dir + "/" + stem;
    NoMarkIn(stem);
    forall k | 0 <= k < |path|
      ensures path[k] != '.' && path[k] != '{'
    {
      if k < |dir| {
        assert path[k] == dir[k];
      } else if k > |dir| {
        assert path[k] == stem[k - |dir| - 1];
      }
    }
    ReplaceUnique(path, ".png", "", "-{p}.png");
    assert path + ".png" + "" == path + ".png";
    assert path + "-{p}.png" + "" == path + "-{p}.png";
    assert path + "-{p}.png" == (path + "-") + "{p}" + ".png";
    ReplaceUnique(path + "-", "{p}", ".png", page);
  }

  /** The script's image directory. */
  const ImagesDirectory: string := "output_images"

  /** The script's image directory has no `.` and no `{`. */
  lemma ImagesDirectoryPlain()
    ensures forall k :: 0 <= k < |ImagesDirectory| ==>
              ImagesDirectory[k] != '.' && ImagesDirectory[k] != '{'
  {
  }

  /** Page `page` of the image a section requests under the script's image
      directory is written to `output_images/stem-page.png`. */
  lemma ScriptImagePages(stem: string, page: string)
    requires InNameAlphabet(stem)
    ensures var path := ImagesDirectory + "/" + stem;
            Replace(Replace(path + ".png", ".png", "-{p}.png"), "{p}", page) ==
            path + "-" + page + ".png"
  {
    ImagesDirectoryPlain();
    PagesInDirectory(ImagesDirectory, stem, page);
  }

  /** The one `.png` of a stem's image name is its extension. */
  lemma TargetOfStem(stem: string)
    requires InNameAlphabet(stem)
    ensures Replace(stem + ".png", ".png", "-{p}.png") == stem + "-{p}.png"
  {
    NoMarkIn(stem);
    ReplaceUnique(stem, ".png", "", "-{p}.png");
    assert stem + ".png" + "" == stem + ".png";
    assert stem + "-{p}.png" + "" == stem + "-{p}.png";
  }

  /** The one `{p}` of a render target is where the page number goes. */
  lemma PageOfStem(stem: string, page: string)
    requires InNameAlphabet(stem)
    ensures Replace(stem + "-{p}.png", "{p}", page) == stem + "-" + page + ".png"
  {
    NoMarkIn(stem);
    assert stem + "-{p}.png" == (stem + "-") + "{p}" + ".png";
    ReplaceUnique(stem + "-", "{p}", ".png", page);
  }

  /** A stem contains none of `.`, `{` and `-`. */
  lemma NoMarkIn(stem: string)
    requires InNameAlphabet(stem)
    ensures forall k :: 0 <= k < |stem| ==> stem[k] != '.' && stem[k] != '{' && stem[k] != '-'
    ensures forall k :: 0 <= k < |stem + "-"| ==> (stem + "-")[k] != '{'
  {
  }

  /** Page images of two different stems differ, whatever the page
      numbers: a stem has no `-`, so the first `-` marks where it ends. */
  lemma DashPrefixesDistinct(a: string, b: string, u: string, v: string)
    requires InNameAlphabet(a) && InNameAlphabet(b) && a != b
    ensures a + "-" + u + ".png" != b + "-" + v + ".png"
  {
    var x, y := a + "-" + u + ".png", b + "-" + v + ".png";
    NoMarkIn(a);
    NoMarkIn(b);
    if |a| == |b| {
      assert x[..|a|] == a && y[..|b|] == b;
    } else if |a| < |b| {
      assert x[|a|] == '-' && y[|a|] == b[|a|];
    } else {
      assert y[|b|] == '-' && x[|b|] == a[|b|];
    }
  }

  /** The pages rendered for two sections with different numbers are
      different files, whatever their titles and page numbers. */
  lemma PageImagesDiffer(i: nat, j: nat, t1: string, t2: string, p: nat, q: nat)
    requires i != j
    ensures FileStem(i, t1) + "-" + Decimal(p) + ".png" != FileStem(j, t2) + "-" + Decimal(q) + ".png"
  {
    StemsDistinct(i, j, t1, t2);
    DashPrefixesDistinct(FileStem(i, t1), FileStem(j, t2), Decimal(p), Decimal(q));
  }

  /** No page image of one section of a document is a page image of another. */
  lemma SectionImagesDistinct(doc: string, preamble: string, k: nat, l: nat, p: nat, q: nat)
    requires k < l < |SplitSections(doc, preamble)|
    ensures var r := SplitSections(doc, preamble);
            PageImage(r[k], p) != PageImage(r[l], q)
  {
    SplitSectionsAt(doc, preamble, k);
    SplitSectionsAt(doc, preamble, l);
    var r := SplitSections(doc, preamble);
    PageImagesDiffer(r[k].index, r[l].index, r[k].title, r[l].title, p, q);
  }

  /** The pieces the sections are made from give the document back when
      joined with the separator, with the introduction in front, and none of
      them contains the separator. */
  lemma SectionPieces(doc: string)
    ensures Join(Split(doc, SectionSeparator), SectionSeparator) == doc
    ensures forall p :: p in Split(doc, SectionSeparator) ==> !Contains(p, SectionSeparator)
  {
    JoinSplit(doc, SectionSeparator);
    SplitPiecesFree(doc, SectionSeparator);
  }
}

=== FILE: wrappers.dfy ===
/** An optional value, shared by the string and the scheduler modules. */
module Wrappers {
  datatype Option<T> = None | Some(value: T)
}
